=== FILE: README.md ===
# ai-pod in Dafny

`ai-pod` runs a coding agent inside a per-workspace podman container. This
project models the parts of its core that are pure logic, and proves
properties of them. Each part is written as pure functions over immutable
data:

- **Naming.** How a workspace path becomes a container name, a volume name and
  an image name (`Container`, `Image`, `Hex`).
- **Runtime files.** The two files generated before a container is created
  (`RuntimeConfig`):
  - the briefing, which is the container preamble followed by the operator's
    `CLAUDE.md`;
  - the settings document, which is the operator's `settings.json` with a
    `hooks.Stop` completion hook injected.
- **Container decisions.** What `launch_container` and `clean_container`
  decide (`Container`). Each is a function from what podman reports to the
  ordered list of steps the tool issues and the result it returns. An error
  stops the list where it occurs.
- **Build decision.** Whether the image is built (`Image.NeedsBuild`,
  `Image.EnsureImage`).
- **Credential guard** (`Credentials`):
  - the path classifier `is_credential_file`, with Rust's `Path::file_name` and
    `Path::extension` semantics (`Paths`);
  - the pruned, depth-bounded `scan_workspace`, as a walk over an abstract
    directory tree;
  - the shortcut in `check_credentials`.
- **Update check.** Release-tag normalisation and the version comparison
  `is_newer` (`Update`).
- **Notifications.** The choice of notification backend, and the AppleScript
  command that `send_notification` builds (`Notify`).
- **On-disk layout.** The layout of the tool's files (`Config`).

The model abstracts several things:

- SHA-256 is a parameter `hash: string -> Digest`. A `Digest` is any 32-byte
  sequence.
- JSON values are a datatype (`Json`). The operator's files come in as a sum
  type: missing, unreadable, unparseable or parsed.
- Every podman call, `which` probe and file write is a `Step`. What the world
  answers to a step is a function `Answers = Step -> Exit`.
- Configuration paths are sequences of components. Workspace paths are strings
  separated by `/`.

Modules: `Types` (Option, Result, the error kinds), `Text`, `Hex`, `Json`,
`Paths`, `Config`, `Runtime`, `RuntimeConfig`, `Image`, `Container`,
`Credentials`, `Update`, `Notify`.

Some behaviour of the code is easy to overlook. The model follows the code in
each of these points:

- The volume is `<container>-data` (src/container.rs:119).
- A stopped container is started and attached to, not recreated
  (src/container.rs:231-232).
- `clean_container` removes the volume too (src/container.rs:438-441).
- A non-successful `podman attach` is an error (src/container.rs:203-205).
- Rebuild-driven removal and volume seeding do not occur.

## Model

| member | source | states |
|---|---|---|
| Hex.Encode | src/container.rs:21 | `hex::encode` gives two lower-case hex digits per byte. |
| Hex.DecodeEncode | src/image.rs:33 | Reading the hex text back yields exactly the encoded bytes, so the encoding loses nothing. |
| Hex.EncodeInjective | src/container.rs:21 | Two byte strings have the same hex text exactly when they are equal. |
| Text.Contains | src/credentials.rs:51 | `str::contains` holds exactly when the pattern occurs at some position. |
| Text.Decimal | src/container.rs:82-85 | The `{}` rendering of a port is a non-empty digit string with no leading zero, whose value is the port. |
| Text.DecimalInjective | src/container.rs:82-85 | Different numbers render differently. |
| Paths.FileName | src/credentials.rs:35-38 | `Path::file_name`, when present, is a single component that is not empty, `.` or `..`. |
| Paths.LastIndexOf | src/credentials.rs:44 | It finds the last occurrence of the character, or none exactly when the character is absent. |
| Paths.FileNameOfJoin | src/credentials.rs:35-38 | The file name of `base.join(name)` is `name`, whatever the base. |
| Paths.ComponentsOfJoin | src/credentials.rs:147 | Joining a file name onto a path appends exactly that component. |
| Paths.NameExtension | src/credentials.rs:44 | An extension, when present, is dot-free and shorter than the name minus its dot. A name without a dot has none. |
| Paths.Extension | src/credentials.rs:44 | A path without a file name has no extension, and an extension never contains a dot. |
| Paths.Join | src/credentials.rs:131-147 | A path joined from a base and a name ends with that name. |
| Paths.NameExtensionSpec | src/credentials.rs:44 | `Path::extension` is absent exactly for names with no dot, or with only a leading dot. Otherwise it is the dot-free text after the last dot, and the stem before that dot is not empty. |
| Config.New | src/config.rs:14-26 | It fails exactly when there is no home directory. Otherwise the config directory is `home/.ai-pod`, and each of the four files is that directory plus its fixed name. |
| Config.LayoutUnderConfigDir | src/config.rs:16-22 | The config directory is directly under home. The pid, log, settings and briefing files are directly under the config directory, and they are pairwise distinct. |
| Config.OperatorFilesOutsideConfigDir | src/config.rs:33-39 | `~/.claude/settings.json` and `~/.claude/CLAUDE.md` are under home, never under the config directory, and never one of the generated files. |
| RuntimeConfig.MergeBriefing | src/container.rs:56-65 | Missing file: exactly the preamble. Unreadable file: the read error. Present file: the preamble, a newline, then the operator's text verbatim. |
| RuntimeConfig.BriefingRecoversOperatorText | src/container.rs:56-65 | The operator's text can be recovered from every generated briefing, and none is invented when the file is missing. |
| RuntimeConfig.MergeSettings | src/container.rs:74-100 | An unreadable file is an error. A root that is not an object fails, exactly then. An existing `hooks` that is not an object fails, exactly then. The merge succeeds exactly when the file is readable, the root is an object, and `hooks` is absent or an object. |
| RuntimeConfig.MergeSettingsInjects | src/container.rs:95-101 | A successful merge sets `hooks.Stop` to the hook. It keeps every other top-level member and every other hook, and overwrites an existing `Stop`. |
| RuntimeConfig.HookCommand | src/container.rs:82-85 | The command is exactly `curl -sf -X POST http://host.containers.internal:<port>/notify` with the port in decimal, followed by the shell's or-`true` fallback, so a failed call is ignored. |
| RuntimeConfig.StopHook | src/container.rs:82-93 | The hook is a one-element array whose entry has exactly the keys `matcher` and `hooks`, and whose single inner hook has exactly the keys `type` and `command`. |
| RuntimeConfig.StopHookShape | src/container.rs:82-93 | The hook is a one-element array with matcher `*` holding one `command` hook whose command is the notify call. |
| RuntimeConfig.MergedHookCommand | src/container.rs:87-101 | In every merged document, `hooks.Stop[0].hooks[0].command` is the notify call for the given port. |
| RuntimeConfig.MissingSettingsGiveOnlyTheHook | src/container.rs:74-80 | A missing file, an unparseable file and `{}` all give the document holding only the hook. |
| RuntimeConfig.MergeIdempotent | src/container.rs:95-101 | Merging a merged document again with the same port changes nothing. |
| RuntimeConfig.HookCommandNamesGatewayAndPort | src/container.rs:82-85 | The hook command contains `host.containers.internal` and the port's digits. |
| RuntimeConfig.HookCommandDeterminesPort | src/container.rs:82-85 | Different ports give different hook commands. |
| Image.SanitiseChar | src/image.rs:21-27 | Every mapped character is in `[a-z0-9._-]`. |
| Image.Sanitise | src/image.rs:19-28 | The sanitised name has the same length, and each character is the mapped original. |
| Text.TrimStartMatches | src/update.rs:37 | `trim_start_matches(c)` removes a prefix made only of `c`, and the result does not start with `c`. |
| Text.TrimEndMatches | src/image.rs:29 | `trim_end_matches(c)` removes a suffix made only of `c`, and the result does not end with `c`. |
| Image.TrimDashes | src/image.rs:29 | `trim_matches('-')` leaves an infix with only dashes around it in the input, neither starting nor ending with a dash. |
| Image.TrimKeepsLabelChars | src/image.rs:29 | Trimming a label keeps only label characters. |
| Image.TrimOfUndashed | src/image.rs:29 | Text that neither starts nor ends with a dash is left unchanged by trimming. |
| Image.Label | src/image.rs:15-30 | The label is non-empty, consists of `[a-z0-9._-]`, and neither starts nor ends with `-`; the `project` fallbacks are LabelWithoutFileName and AllDashesFallBack. |
| Image.PlainNameIsLowercased | src/image.rs:14-28 | A name of ASCII alphanumerics and `._-` that neither starts nor ends with `-` becomes its lower-cased self. |
| Image.LabelWithoutFileName | src/image.rs:15-18 | A workspace without a usable file name is labelled `project`. |
| Image.AllDashesFallBack | src/image.rs:29-30 | A name that sanitises to dashes only (including the empty name) falls back to `project`. |
| Image.ImageName | src/image.rs:13-36 | The name is the label of the last path component, `-`, and six lower-case hex digits that decode to the first three digest bytes. Its last dash is the one before those digits, whatever dashes the label holds. |
| Image.Tagged | src/image.rs:35 | `{label}-{hash}` with a six-digit hex hash ends with that hash and has its last dash right after the label. |
| Image.ImageNameUsesLastComponent | src/image.rs:15-16 | The image name of `parent/dir` starts with `dir`'s label, whatever the parent is. |
| Image.NeedsBuild | src/image.rs:46-51 | A forced build is needed without asking podman. Otherwise the query must run, and a build is needed exactly when the image does not exist. |
| Image.EnsureImage | src/image.rs:76-83 | It builds exactly when a build is needed. It succeeds exactly when no build is needed or the build succeeds. A failed query is an error with no step. |
| Image.ForcedBuildIgnoresQuery | src/image.rs:46-49 | A forced `ensure_image` issues the build whatever the query would answer. |
| Container.ContainerName | src/container.rs:18-23 | The name is `claude-` plus 12 lower-case hex digits (19 characters), and they decode to the first six digest bytes. |
| Container.ContainerNameInjective | src/container.rs:18-23 | Two container names agree exactly when the first six digest bytes agree. |
| Container.VolumeName | src/container.rs:119 | The volume name is the container name followed by `-data`. |
| Container.VolumeNameRoundTrip | src/container.rs:119 | The container name can be recovered from the volume name, which extends it. |
| Container.ArgvLayout | src/container.rs:121-150 | The `podman run` arguments name the container, mount the workspace at `/app:Z` and the volume at the agent's home, and end with the image. |
| Container.CopyBoth | src/container.rs:163-181 | Only the two copies are issued, and they succeed exactly when both could be started. Their exit status is ignored. |
| Container.RunAndCopy | src/container.rs:154-181 | `podman run` comes first and must succeed. Only copies follow. |
| Container.SettingsThenRun | src/container.rs:116-181 | Success requires a successful settings merge and a successful run. A success issued exactly the settings write, the run and the two copies, and each of them ran. |
| Container.Create | src/container.rs:109-186 | `create_container` issues only writes, the run and the two copies. It succeeds only when both merges and the run succeed. A success issued both writes, the run and both copies in that order, and each of them ran. |
| Container.AttachTo | src/container.rs:188-208 | `podman attach` is the only step. It succeeds exactly when the attach exits successfully, and otherwise fails with the attach error. |
| Container.StartThenAttach | src/container.rs:210-223 | `podman start` comes first. Attach is issued exactly when the start succeeded, and the whole succeeds exactly when both do. A failed start is the start error. |
| Container.CreateSucceeds | src/container.rs:109-186 | With every step succeeding, creation is: write the briefing, write the settings, run, copy the briefing, copy the settings. |
| Container.Resume | src/container.rs:228-235 | An existing container is only started and attached to. Attach comes last and requires a successful start when the container was stopped. A failed running query is an error with no step. |
| Container.CreateAndAttach | src/container.rs:236-239 | Attach follows creation and is the last step. It is issued only after both merges and the run succeeded, and after both writes, the run and both copies were issued in order and each of them ran. |
| Container.Launch | src/container.rs:225-242 | A successful launch ends with a successful attach. A failed existence query is an error with no step. |
| Container.LaunchRunning | src/container.rs:228-235 | A running container is only attached to. |
| Container.LaunchStopped | src/container.rs:231-235 | A stopped container is started, then attached to only if the start succeeded. |
| Container.LaunchAbsent | src/container.rs:236-239 | With every step succeeding, an absent container goes through both writes, run, copy, copy and attach, in that order. |
| Container.LaunchNeverRecreates | src/container.rs:228-235 | For an existing container, no step other than start and attach is issued. |
| Container.LaunchAttachesOnlyAfterSuccess | src/container.rs:225-242 | Attach is always last. For an absent container it happens only after the configs and the run succeeded and every earlier step ran. For a stopped container it happens only after the start succeeded. |
| Container.AttachNeedsWritesAndCopies | src/container.rs:109-186 | A new container is attached to only as the sixth step, after both writes, the run and both copies, each of which ran. |
| Container.LaunchIgnoresCopyStatus | src/container.rs:163-181 | The exit status of `podman cp` changes neither the steps nor the result of a launch. |
| Container.CreateIgnoresCopyStatus | src/container.rs:163-181 | The same holds for `create_container`. |
| Container.RunAndCopyIgnoresCopyStatus | src/container.rs:163-181 | The same holds for the run and the copies. |
| Container.Clean | src/container.rs:409-446 | An absent container gives no step and success. A failed existence or running query is the matching error with no step. Only stop, rm and volume rm of this workspace's names are issued. The volume is removed exactly when the container exists, the running query ran, the stop (if needed) and rm could be started. The clean succeeds exactly when the container was absent or its volume removal was reached. |
| Container.CleanStopNotRun | src/container.rs:424-429 | A running container whose stop cannot be started ends the clean with the stop error, before any rm. |
| Container.CleanRemoveNotRun | src/container.rs:432-441 | When rm cannot be started the clean fails with the remove error, rm is the last step, and the volume is never removed. |
| Container.CleanExisting | src/container.rs:421-441 | An existing container is stopped only if it runs, then removed, then its volume is removed, with success. |
| Container.CleanIgnoresStatuses | src/container.rs:423-441 | The exit status of stop and rm, and the whole outcome of volume rm, do not change the result. |
| Container.CleanRemovesOwnVolume | src/container.rs:438-441 | The only volume a clean removes is `<container>-data`. |
| Container.CleanRemovesTheLaunchedVolume | src/container.rs:119 | The volume a clean removes is the one a launch mounts. |
| Container.LaunchMountsItsVolume | src/container.rs:119-135 | The launch's run step mounts the workspace and the workspace's own volume. |
| Container.LaunchRunsOnlyItsOwnSpec | src/container.rs:225-239 | The only container a launch creates is the workspace's own. |
| Container.CleanIsolated | src/container.rs:409-441 | Cleaning one workspace never touches the container or volume of a workspace whose digest differs in its first six bytes. |
| Credentials.ContainsAny | src/credentials.rs:51 | True exactly when one of the patterns occurs in the text. |
| Credentials.IsCredentialFile | src/credentials.rs:34-56 | A path without a file name is never flagged. |
| Credentials.DirPatternFlagged | src/credentials.rs:50-53 | A named path containing `.aws/credentials`, `.aws/config`, `.ssh/` or `.gnupg/` is flagged. |
| Credentials.AwsFileFlagged | src/credentials.rs:50-53 | `credentials` and `config` directly inside a `.aws` directory are flagged, wherever that directory is. |
| Credentials.AwsCredentialsExample | src/credentials.rs:93-97 | `/home/user/.aws/credentials` is flagged. |
| Credentials.PatternNameFlagged | src/credentials.rs:40-42 | A file with a credential name is flagged in every directory. |
| Credentials.PatternsAreFileNames | src/credentials.rs:6-21 | Every credential name is a plain file name. |
| Credentials.ExtensionFlagged | src/credentials.rs:44-48 | `stem.ext` with a key-store extension is flagged in every directory. |
| Credentials.SecretDirectoryFlagged | src/credentials.rs:50-53 | Every file directly inside a `.ssh` or `.gnupg` directory is flagged, wherever that directory is. |
| Credentials.NoFragments | src/credentials.rs:27-32 | Where no dot is followed by `a`, `s` or `g`, no directory fragment occurs. |
| Credentials.OrdinaryFileNotFlagged | src/credentials.rs:34-56 | `dir/stem.ext` is not flagged when the name is not a credential name, `ext` is not a key-store extension and not a fragment start, and `dir` has no dot. |
| Credentials.StemDotExt | src/credentials.rs:44 | `stem.ext` is a file name whose extension is `ext`. |
| Credentials.SourceFileNotFlagged | src/credentials.rs:106-109 | `/project/src/main.rs` is not flagged. |
| Credentials.ConfigFileNotFlagged | src/credentials.rs:111-114 | `/project/config.json` is not flagged. |
| Credentials.RootName | src/credentials.rs:131-143 | The name the walk filters the root by is its file name, or the whole path when it has none. |
| Credentials.Walk | src/credentials.rs:131-147 | Everything the walk reports is accepted by the filter and lies under the entry's path. |
| Credentials.Scan | src/credentials.rs:131-149 | Every reported path is flagged and lies under the workspace. |
| Credentials.WalkSound | src/credentials.rs:131-147 | The walk reports exactly the paths reachable by a route within the depth bound, avoiding skipped names and ending at an accepted regular file. |
| Credentials.WalkReported | src/credentials.rs:131-147 | Every reported path has such a route. |
| Credentials.WalkComplete | src/credentials.rs:131-147 | Every path such a route reaches is reported. |
| Credentials.RoutesAreShallow | src/credentials.rs:133 | No route goes deeper than five levels below the root. |
| Credentials.RouteAvoidsSkipped | src/credentials.rs:136-143 | No entry on the way to a reported file is named like a skipped directory. |
| Credentials.ScanSpec | src/credentials.rs:131-149 | The scan reports exactly the flagged regular files reachable by a route. A workspace whose own name is skipped yields nothing. |
| Credentials.CheckCredentials | src/credentials.rs:151-179 | An empty scan proceeds without asking. Otherwise the operator's answer decides, and a failed prompt is an error. |
| Credentials.PatternsNotSkipped | src/credentials.rs:6-21 | No credential name is the name of a skipped directory. |
| Credentials.TopLevelFileScanned | src/credentials.rs:131-149 | A flagged regular file directly in the workspace is reported. |
| Credentials.TopLevelSecretNeedsConsent | src/credentials.rs:151-179 | A workspace holding a file with a credential name at its top level goes on only with the operator's consent. |
| Text.TrimStartOfRepeat | src/update.rs:37 | Any number of leading `v`s (or any other repeated character) is removed, and what follows them is kept whole. |
| Update.LatestVersion | src/update.rs:33-37 | A missing or non-string `tag_name` is an error, exactly then. The version has no leading `v`, and the tag is a run of `v`s followed by the version, so nothing else is stripped. |
| Update.ParseU64 | src/update.rs:44-46 | A parsed field is below 2^64 and is digits with at most a leading `+` that is not alone. |
| Update.ParseU64Accepts | src/update.rs:44-46 | Every digit run below 2^64 parses to its value, with or without a `+`. |
| Update.ParseU64RejectsOverflow | src/update.rs:44-46 | Digit runs at or above 2^64 do not parse. |
| Update.ParseU64OfDecimal | src/update.rs:44-46 | Rendering a `u64` and parsing it gives the number back. |
| Update.LeadingZeroIgnored | src/update.rs:44-46 | A leading zero does not change the parsed value. |
| Update.IndexOf | src/update.rs:42 | It finds the first occurrence of the character, or none exactly when the character is absent. |
| Update.SplitN | src/update.rs:42 | `splitn(n, '.')` gives at most `n` parts that join back to the input. Every part but the last is dot-free, and so is the last when there are fewer than `n`. |
| Update.SplitN3 | src/update.rs:42-46 | `splitn(3, '.')` gives one to three parts that join back to the input with dots. Every part but the last is dot-free, and so is the last when there are fewer than three. |
| Update.SplitN3OfJoin | src/update.rs:42 | Splitting `a.b.c` with dot-free `a` and `b` gives `[a, b, c]`. |
| Update.ParseVersion | src/update.rs:41-48 | A parsed version has three `u64` fields, and the text has at least two dots. |
| Update.ParseVersionOfRender | src/update.rs:41-48 | Every `u64` triple rendered as `a.b.c` parses back to itself. |
| Update.FourComponentsRejected | src/update.rs:41-48 | A fourth component lands in the patch field, which then fails to parse. |
| Update.TooFewComponentsRejected | src/update.rs:41-48 | Text with fewer than two dots is no version. |
| Update.IsNewer | src/update.rs:40-53 | Newer implies both sides parse and the parsed versions differ. |
| Update.Greater | src/update.rs:49-50 | The tuple comparison is strict, decided by the major fields when they differ and by the minor fields when only those differ. |
| Update.GreaterIsKeyOrder | src/update.rs:49-50 | The lexicographic tuple order is the order of the versions as base-2^64 numbers. |
| Update.IsNewerIsKeyOrder | src/update.rs:49-50 | On parseable inputs, `is_newer` is the lexicographic comparison of (major, minor, patch). |
| Update.UnparseableIsNeverNewer | src/update.rs:49-52 | When either side does not parse, nothing is newer. |
| Update.IsNewerIrreflexive | src/update.rs:40-53 | No version is newer than itself. |
| Update.IsNewerAsymmetric | src/update.rs:49-50 | If `a` is newer than `b`, then `b` is not newer than `a`. |
| Update.IsNewerTransitive | src/update.rs:49-50 | Newer is transitive. |
| Update.NewerPatch | src/update.rs:59-62 | `0.2.2` is newer than `0.2.1`. |
| Update.NewerMinor | src/update.rs:64-67 | `0.3.0` is newer than `0.2.9`. |
| Update.NewerMajor | src/update.rs:69-72 | `1.0.0` is newer than `0.9.9`. |
| Update.OlderNotNewer | src/update.rs:79-82 | `0.2.0` is not newer than `0.2.1`. |
| Update.UpdateNotice | src/update.rs:6-18 | A release is announced exactly when its tag was read and it is newer than the running version. |
| Update.SameReleaseNotAnnounced | src/update.rs:6-18 | The running release, tagged with any number of `v`s, is never announced. |
| Notify.DetectBackend | src/server/notify.rs:9-27 | `osascript` when available, else `notify-send` when available, else none. Each holds exactly under its condition. |
| Notify.Escape | src/server/notify.rs:34-35 | The result is longer by the number of quotes and has the same number of quotes. Every quote in it is preceded by a backslash. |
| Notify.UnescapeEscape | src/server/notify.rs:34-35 | Escaping loses nothing: unescaping gives the original back. |
| Notify.EscapeQuoteFree | src/server/notify.rs:34-35 | Text without quotes passes through unchanged. |
| Notify.EscapeQuotedWord | src/server/notify.rs:72-88 | `"world"` becomes `\"world\"`. |
| Notify.EscapeConcat | src/server/notify.rs:34-35 | Escaping distributes over concatenation. |
| Notify.Script | src/server/notify.rs:32-36 | The script starts with `display notification "` and ends with a quote. Its length is that of both texts plus their quotes and the fixed parts. |
| Notify.ScriptReadsBackWithoutBackslash | src/server/notify.rs:32-36 | As written, AppleScript reads back the message and the title when neither contains a backslash. |
| Notify.ScriptMisreadsBackslash | src/server/notify.rs:32-36 | As written, a message that is a single backslash is not read back. |
| Notify.ReadEscapedLiteral | src/server/notify.rs:32-36 | A literal with quotes and backslashes escaped reads back as the original text, and reading stops at its closing quote. |
| Notify.SafeScript | src/server/notify.rs:32-36 | The corrected script is the script as written whenever neither text contains a backslash. |
| Notify.SafeScriptReadsBack | src/server/notify.rs:32-36 | With both escapes, AppleScript reads back exactly the message and the title. |
| Notify.EscapesAgreeWithoutBackslash | src/server/notify.rs:34-35 | Without backslashes, the source's escape and the full escape agree. |
| Notify.SendNotification | src/server/notify.rs:29-48 | The probes come first. With `osascript` available, it runs one `osascript -e` with the script as written, escaping only quotes. With `notify-send` available, it runs `notify-send title message`. Otherwise it runs nothing further. |
| Notify.NotificationMisreadsBackslash | src/server/notify.rs:29-36 | As written, the `osascript` command for a message that is a single backslash does not read back as that message. |
| Notify.SafeSendNotification | src/server/notify.rs:29-48 | The same dispatch with the corrected script. |
| Notify.SafeNotificationReadsBack | src/server/notify.rs:29-36 | With the corrected script, the `osascript` command reads back as exactly the message and the title. |
| Notify.NotifySendGetsRawTexts | src/server/notify.rs:39-43 | `notify-send` receives the title and the message unescaped, as two arguments. |

## Left out

- Running podman, `which`, `osascript` and `notify-send`, and reading and
  writing files: these are I/O. Their outcomes are the `Answers` and `Query`
  inputs.
- SHA-256 is a parameter. Collision resistance cannot be proved, so
  injectivity is stated on digests, not on paths.
- `serde_json` parsing and pretty-printing are external. The merge takes the
  parsed value (or the parse failure) and returns a value.
- `to_lowercase` on non-ASCII text: characters outside ASCII become `-`. Rust
  would first lower-case a few of them to ASCII letters (the Kelvin sign gives
  `k`).
- Paths that are not valid Unicode (`to_str` returning `None`) are not
  modelled. Paths are Unicode strings, and `to_string_lossy` is the identity.
- `list_containers`, `AppConfig::init`, all coloured and printed output, and
  the `dialoguer` prompt. Only whether the prompt ran and what it answered is
  modelled.
- `fetch_latest_version`'s HTTP request and timeout. The response document is
  an input.
- `CURRENT_VERSION` is a parameter, since it is fixed at build time.
- The notification daemon (PID file, HTTP server), `src/main.rs` and
  `src/cli.rs`: dispatch and process plumbing, outside this core.
- walkdir I/O errors (entries dropped by `filter_map(Result::ok)`) are not
  modelled. Symbolic links are leaf entries that are never reported, since the
  walk does not follow them.
- Credentials.IsCredentialFile: its contract states only that an unnamed path
  is never flagged. Its three positive checks are stated by
  `PatternNameFlagged`, `ExtensionFlagged`, `DirPatternFlagged`,
  `SecretDirectoryFlagged` and `AwsFileFlagged`, and the negative ones by
  `OrdinaryFileNotFlagged`.
- Notify.ReadScript models how AppleScript reads string literals: `\"`, `\\`
  and other backslash escapes, ending at an unescaped quote. It is not a full
  AppleScript parser.
- Config.ClaudeSettingsPath and Config.ClaudeMdPath have no contracts of their
  own. `OperatorFilesOutsideConfigDir` states their layout.
- Container.LaunchAbsent states the successful creation path in full. The
  failing paths are covered by `CreateAndAttach` and
  `LaunchAttachesOnlyAfterSuccess`.

## Findings

| source | as written | input that shows it | evidently intended | confidence | as-written member | corrected member |
|---|---|---|---|---|---|---|
| src/server/notify.rs:32-36 | Only `"` is escaped when the message and title are put into AppleScript string literals; a backslash is copied as it is | a message consisting of one backslash: the literal becomes `"\"`, whose backslash escapes the closing quote, so AppleScript does not read the message back | every backslash escaped as `\\` as well, so any message and title read back exactly | medium, not executed | Notify.Script and Notify.SendNotification, shown by Notify.ScriptMisreadsBackslash and Notify.NotificationMisreadsBackslash | Notify.SafeScript and Notify.SafeSendNotification, proved by Notify.SafeScriptReadsBack and Notify.SafeNotificationReadsBack |

=== FILE: config.dfy ===
/** The tool's on-disk layout (src/config.rs). A path is its list of
    components; `Path::join` of a relative component appends it. */
module Config {
  import opened Types

  type Path = seq<string>

  const ConfigDirName := ".ai-pod"
  const PidFileName := "server.pid"
  const LogFileName := "server.log"
  const RuntimeSettingsName := "runtime-settings.json"
  const RuntimeClaudeMdName := "runtime-CLAUDE.md"
  const ClaudeDirName := ".claude"

  datatype AppConfig = AppConfig(
    configDir: Path,
    pidFile: Path,
    logFile: Path,
    runtimeSettings: Path,
    runtimeClaudeMd: Path,
    homeDir: Path)

  /** `p` lies under directory `dir` (Rust's `Path::starts_with`). */
  predicate Under(p: Path, dir: Path)
  {
    dir <= p
  }

  /** `AppConfig::new`: fails without a home directory, otherwise lays out every
      file of the tool under `~/.ai-pod`. */
  function New(home: Option<Path>): (r: Result<AppConfig>)
    ensures home.None? <==> r == Failure(NoHomeDirectory)
    ensures r.Success? ==>
      && r.value.homeDir == home.value
      && r.value.configDir == home.value + [ConfigDirName]
      && r.value.pidFile == r.value.configDir + [PidFileName]
      && r.value.logFile == r.value.configDir + [LogFileName]
      && r.value.runtimeSettings == r.value.configDir + [RuntimeSettingsName]
      && r.value.runtimeClaudeMd == r.value.configDir + [RuntimeClaudeMdName]
  {
    match home
    case None => Failure(NoHomeDirectory)
    case Some(h) =>
      var dir := h + [ConfigDirName];
      Success(AppConfig(
        configDir := dir,
        pidFile := dir + [PidFileName],
        logFile := dir + [LogFileName],
        runtimeSettings := dir + [RuntimeSettingsName],
        runtimeClaudeMd := dir + [RuntimeClaudeMdName],
        homeDir := h))
  }

  /** `claude_settings_path`: the operator's own settings file. */
  function ClaudeSettingsPath(c: AppConfig): Path
  {
    c.homeDir + [ClaudeDirName, "settings.json"]
  }

  /** `claude_md_path`: the operator's own CLAUDE.md. */
  function ClaudeMdPath(c: AppConfig): Path
  {
    c.homeDir + [ClaudeDirName, "CLAUDE.md"]
  }

  /** The four files the tool keeps in its config directory. */
  function GeneratedFiles(c: AppConfig): seq<Path>
  {
    [c.pidFile, c.logFile, c.runtimeSettings, c.runtimeClaudeMd]
  }

  /** Every file the tool generates or keeps lies directly in its config
      directory, which lies directly in the home directory; the four files are
      distinct from each other. */
  lemma LayoutUnderConfigDir(home: Path)
    ensures var c := New(Some(home)).value;
      && Under(c.configDir, c.homeDir) && |c.configDir| == |c.homeDir| + 1
      && (forall f :: f in GeneratedFiles(c) ==> Under(f, c.configDir) && |f| == |c.configDir| + 1)
      && (forall i, j :: 0 <= i < j < |GeneratedFiles(c)| ==> GeneratedFiles(c)[i] != GeneratedFiles(c)[j])
  {
    var c := New(Some(home)).value;
    var d := c.configDir;
    var files := GeneratedFiles(c);
    var names := [PidFileName, LogFileName, RuntimeSettingsName, RuntimeClaudeMdName];
    forall i, j | 0 <= i < j < 4 ensures files[i] != files[j] {
      assert files[i][|d|] == names[i] && files[j][|d|] == names[j];
    }
  }

  /** The operator's files under `~/.claude` sit under the home directory but
      never under the tool's config directory, so the generated runtime files
      can never overwrite them. */
  lemma OperatorFilesOutsideConfigDir(home: Path)
    ensures var c := New(Some(home)).value;
      && Under(ClaudeSettingsPath(c), c.homeDir) && Under(ClaudeMdPath(c), c.homeDir)
      && !Under(ClaudeSettingsPath(c), c.configDir) && !Under(ClaudeMdPath(c), c.configDir)
      && ClaudeSettingsPath(c) !in GeneratedFiles(c)
      && ClaudeMdPath(c) !in GeneratedFiles(c)
      && ClaudeSettingsPath(c) != ClaudeMdPath(c)
  {
    var c := New(Some(home)).value;
    var n := |home|;
    assert ClaudeSettingsPath(c)[n] == ClaudeDirName && ClaudeMdPath(c)[n] == ClaudeDirName;
    assert c.configDir[n] == ConfigDirName;
    assert ClaudeSettingsPath(c)[n + 1] != ClaudeMdPath(c)[n + 1];
    forall f | f in GeneratedFiles(c) ensures f[n] == ConfigDirName {
    }
  }
}

=== FILE: container.dfy ===
/** Container naming and the launch/clean decisions of src/container.rs. Each
    decision is a function from what the runtime reports to the ordered list
    of steps issued and the result; an error stops the list where it occurs. */
module Container {
  import opened Types
  import opened Hex
  import opened Text
  import opened Config
  import opened Runtime
  import opened RuntimeConfig
  import Image

  const NamePrefix: string := "claude-"
  const VolumeSuffix: string := "-data"

  /** Where the workspace and the volume are mounted inside the container. */
  const WorkspaceMount: string := ":/app:Z"
  const VolumeMount: string := ":/home/claude/.claude"

  // ---------------------------------------------------------------- naming

  /** `generate_container_name`: `claude-` and the hex of the first six bytes
      of the workspace path's digest. The hex part decodes back to those bytes. */
  function ContainerName(d: Digest): (r: string)
    ensures |r| == 19
    ensures NamePrefix <= r
    ensures IsLowerHex(r[7..])
    ensures Hex.Decode(r[7..]) == Some(d[..6])
  {
    var r := NamePrefix + Hex.Encode(d[..6]);
    assert r[7..] == Hex.Encode(d[..6]);
    Hex.DecodeEncode(d[..6]);
    r
  }

  /** The name of a workspace's container, for a given hash function. */
  function NameFor(workspace: string, hash: string -> Digest): string
  {
    ContainerName(hash(workspace))
  }

  /** Two workspaces share a container name exactly when their digests agree
      on the first six bytes. */
  lemma ContainerNameInjective(a: Digest, b: Digest)
    ensures ContainerName(a) == ContainerName(b) <==> a[..6] == b[..6]
  {
  }

  /** The persistent volume of a container: its name followed by `-data`. */
  function VolumeName(container: string): (r: string)
    ensures container <= r && |r| == |container| + 5
    ensures r[|container|..] == "-data"
  {
    container + VolumeSuffix
  }

  /** The container a volume belongs to, recovered from the volume's name. */
  function VolumeOwner(volume: string): Option<string>
  {
    if |volume| >= |VolumeSuffix| && volume[|volume| - |VolumeSuffix|..] == VolumeSuffix
    then Some(volume[..|volume| - |VolumeSuffix|])
    else None
  }

  /** The volume name is the container name with `-data` appended, so the
      container is recoverable from it and distinct containers get distinct volumes. */
  lemma VolumeNameRoundTrip(container: string)
    ensures VolumeOwner(VolumeName(container)) == Some(container)
    ensures container <= VolumeName(container)
  {
    var v := VolumeName(container);
    assert v[..|v| - |VolumeSuffix|] == container;
  }

  // ---------------------------------------------------------------- the world

  /** What the tool observes and what the runtime answers during one call. */
  datatype World = World(
    exists_: Query,           // `podman ps -a --filter name=^<name>$`
    running: Query,           // `podman ps --filter name=^<name>$`
    claudeMd: TextFile,       // ~/.claude/CLAUDE.md
    settings: SettingsFile,   // ~/.claude/settings.json
    answers: Answers)         // the outcome of every step issued

  /** The container's state as the two probes report it, when both ran. */
  predicate IsAbsent(w: World)  { w.exists_ == Printed(false) }
  predicate IsStopped(w: World) { w.exists_ == Printed(true) && w.running == Printed(false) }
  predicate IsRunning(w: World) { w.exists_ == Printed(true) && w.running == Printed(true) }

  // ---------------------------------------------------------------- create

  /** The argument vector of `podman run` in `create_container`, for a
      container name, workspace, volume, notification port and image. */
  function Argv(name: string, workspace: string, volume: string, port: nat, image: string): seq<string>
  {
    [ "run", "-dit", "--init", "--name", name,
      "-v", workspace + WorkspaceMount,
      "-v", volume + VolumeMount,
      "--add-host=" + GatewayHost + ":host-gateway",
      "-e", "HOST_GATEWAY=" + GatewayHost,
      "-e", "NOTIFY_URL=http://" + GatewayHost + ":" + Decimal(port) + "/notify",
      image ]
  }

  /** The arguments of a run step: the names all derive from the workspace digest. */
  function RunArgs(r: RunSpec): seq<string>
  {
    var name := ContainerName(r.digest);
    Argv(name, r.workspace, VolumeName(name), r.port, Image.ImageName(r.workspace, r.digest))
  }

  /** Where `podman run` names the container and mounts the workspace and the volume. */
  lemma ArgvLayout(name: string, workspace: string, volume: string, port: nat, image: string)
    ensures var args := Argv(name, workspace, volume, port, image);
            && |args| == 15 && args[3] == "--name" && args[4] == name
            && args[5] == "-v" && args[6] == workspace + WorkspaceMount
            && args[7] == "-v" && args[8] == volume + VolumeMount
            && args[14] == image
  {
  }

  /** The `podman run` that `launch_container` creates a workspace's container with. */
  function LaunchRun(workspace: string, port: Port, hash: string -> Digest): RunSpec
  {
    RunSpec(workspace, hash(workspace), port)
  }

  function CopyBriefing(cfg: AppConfig, name: string): Step
  {
    CopyIn(cfg.runtimeClaudeMd, name + ":/home/claude/.claude/CLAUDE.md")
  }

  function CopySettings(cfg: AppConfig, name: string): Step
  {
    CopyIn(cfg.runtimeSettings, name + ":/home/claude/.claude/settings.json")
  }

  /** The two `podman cp` steps that end `create_container`. A copy only has
      to start; its exit status is not looked at. */
  function CopyBoth(cfg: AppConfig, name: string, answers: Answers): (t: Trace)
    ensures forall s :: s in t.steps ==> s == CopyBriefing(cfg, name) || s == CopySettings(cfg, name)
    ensures t.result.Success? <==>
      !answers(CopyBriefing(cfg, name)).NotRun? && !answers(CopySettings(cfg, name)).NotRun?
    ensures t.result.Success? ==> AllRan(t.steps, answers)
    ensures t.result.Success? ==> t.steps == [CopyBriefing(cfg, name), CopySettings(cfg, name)]
  {
    var cp1 := CopyBriefing(cfg, name);
    var cp2 := CopySettings(cfg, name);
    Then(cp1, answers(cp1).NotRun?, CopyClaudeMdFailed,
      Then(cp2, answers(cp2).NotRun?, CopySettingsFailed, Done))
  }

  /** `podman run`, which must succeed, followed by the copies. */
  function RunAndCopy(cfg: AppConfig, name: string, run: RunSpec, answers: Answers): (t: Trace)
    ensures |t.steps| > 0 && t.steps[0] == RunContainer(run)
    ensures forall s :: s in t.steps[1..] ==> s == CopyBriefing(cfg, name) || s == CopySettings(cfg, name)
    ensures t.result.Success? ==> Succeeded(answers(RunContainer(run))) && AllRan(t.steps, answers)
    ensures t.result.Success? ==>
      t.steps == [RunContainer(run), CopyBriefing(cfg, name), CopySettings(cfg, name)]
  {
    Then(RunContainer(run), !Succeeded(answers(RunContainer(run))), CreateFailed, CopyBoth(cfg, name, answers))
  }

  /** Generating and writing the settings, then running the container. */
  function SettingsThenRun(cfg: AppConfig, name: string, port: Port, run: RunSpec, w: World): (t: Trace)
    ensures forall s :: s in t.steps ==>
      s.WriteJson? || s == RunContainer(run)
      || s == CopyBriefing(cfg, name) || s == CopySettings(cfg, name)
    ensures t.result.Success? ==>
      MergeSettings(w.settings, port).Success? && Succeeded(w.answers(RunContainer(run)))
    ensures t.result.Success? ==> AllRan(t.steps, w.answers)
    ensures t.result.Success? ==>
      && MergeSettings(w.settings, port).Success?
      && t.steps == [WriteJson(cfg.runtimeSettings, MergeSettings(w.settings, port).value),
                     RunContainer(run), CopyBriefing(cfg, name), CopySettings(cfg, name)]
  {
    match MergeSettings(w.settings, port)
    case Failure(e) => Trace([], Failure(e))
    case Success(doc) =>
      var write := WriteJson(cfg.runtimeSettings, doc);
      var rest := RunAndCopy(cfg, name, run, w.answers);
      assert rest.steps == [rest.steps[0]] + rest.steps[1..];
      Then(write, w.answers(write).NotRun?, WriteSettingsFailed, rest)
  }

  /** `create_container`: generate and write the briefing, then the settings,
      run the container, and copy both files in. The writes and `podman run`
      must succeed; a copy only has to start. It never starts or attaches. */
  function Create(cfg: AppConfig, name: string, port: Port, run: RunSpec, w: World): (t: Trace)
    ensures forall s :: s in t.steps ==>
      s.WriteText? || s.WriteJson? || s == RunContainer(run)
      || s == CopyBriefing(cfg, name) || s == CopySettings(cfg, name)
    ensures t.result.Success? ==>
      && MergeBriefing(w.claudeMd).Success?
      && MergeSettings(w.settings, port).Success?
      && Succeeded(w.answers(RunContainer(run)))
    ensures t.result.Success? ==> AllRan(t.steps, w.answers)
    ensures t.result.Success? ==> CreatedInOrder(cfg, name, port, run, w, t.steps)
  {
    match MergeBriefing(w.claudeMd)
    case Failure(e) => Trace([], Failure(e))
    case Success(briefing) =>
      var write := WriteText(cfg.runtimeClaudeMd, briefing);
      Then(write, w.answers(write).NotRun?, WriteClaudeMdFailed,
           SettingsThenRun(cfg, name, port, run, w))
  }

  /** The five steps of a successful creation, in order: write the briefing,
      write the settings, run the container, copy the briefing, copy the settings. */
  predicate CreatedInOrder(cfg: AppConfig, name: string, port: Port, run: RunSpec, w: World, steps: seq<Step>)
  {
    && MergeBriefing(w.claudeMd).Success?
    && MergeSettings(w.settings, port).Success?
    && steps == [ WriteText(cfg.runtimeClaudeMd, MergeBriefing(w.claudeMd).value),
                  WriteJson(cfg.runtimeSettings, MergeSettings(w.settings, port).value),
                  RunContainer(run),
                  CopyBriefing(cfg, name),
                  CopySettings(cfg, name) ]
  }

  /** `attach_to_container`: a non-successful attach is an error. */
  function AttachTo(name: string, answers: Answers): (t: Trace)
    ensures t.steps == [Attach(name)]
    ensures t.result.Success? <==> Succeeded(answers(Attach(name)))
    ensures t.result.Failure? ==> t.result.error == AttachFailed
  {
    Then(Attach(name), !Succeeded(answers(Attach(name))), AttachFailed, Done)
  }

  /** `start_container`: a non-successful start is an error. */
  function StartThenAttach(name: string, answers: Answers): (t: Trace)
    ensures t.steps == (if Succeeded(answers(Start(name))) then [Start(name), Attach(name)] else [Start(name)])
    ensures t.result.Success? <==> Succeeded(answers(Start(name))) && Succeeded(answers(Attach(name)))
    ensures t.result == Failure(StartFailed) <==> !Succeeded(answers(Start(name)))
  {
    Then(Start(name), !Succeeded(answers(Start(name))), StartFailed, AttachTo(name, answers))
  }

  // ---------------------------------------------------------------- launch

  /** The existing-container branch of `launch_container`: attach when the
      container runs, start it first when it is stopped. */
  function Resume(name: string, running: Query, answers: Answers): (t: Trace)
    ensures forall s :: s in t.steps ==> s == Start(name) || s == Attach(name)
    ensures t.result.Success? ==>
      && |t.steps| > 0 && t.steps[|t.steps| - 1] == Attach(name)
      && Succeeded(answers(Attach(name)))
    ensures Attach(name) in t.steps ==>
      && t.steps[|t.steps| - 1] == Attach(name)
      && running.Printed?
      && (running == Printed(false) ==> Succeeded(answers(Start(name))))
    ensures running.QueryNotRun? ==> t == Trace([], Failure(RunningQueryFailed))
  {
    match running
    case QueryNotRun => Trace([], Failure(RunningQueryFailed))
    case Printed(true) => AttachTo(name, answers)
    case Printed(false) => StartThenAttach(name, answers)
  }

  /** The absent-container branch of `launch_container`: create the container,
      then attach to it once creation succeeded. */
  function CreateAndAttach(cfg: AppConfig, name: string, port: Port, run: RunSpec, w: World): (t: Trace)
    ensures forall s :: s in t.steps ==>
      s.WriteText? || s.WriteJson? || s == RunContainer(run)
      || s == CopyBriefing(cfg, name) || s == CopySettings(cfg, name) || s == Attach(name)
    ensures t.result.Success? ==>
      && |t.steps| > 0 && t.steps[|t.steps| - 1] == Attach(name)
      && Succeeded(w.answers(Attach(name)))
    ensures Attach(name) in t.steps ==>
      && t.steps[|t.steps| - 1] == Attach(name)
      && MergeBriefing(w.claudeMd).Success?
      && MergeSettings(w.settings, port).Success?
      && Succeeded(w.answers(RunContainer(run)))
      && AllRan(t.steps[..|t.steps| - 1], w.answers)
      && CreatedInOrder(cfg, name, port, run, w, t.steps[..|t.steps| - 1])
  {
    var created := Create(cfg, name, port, run, w);
    if created.result.Failure? then created
    else
      var attached := AttachTo(name, w.answers);
      AttachAfterCreate(cfg, name, port, run, w, created.steps);
      Trace(created.steps + attached.steps, attached.result)
  }

  /** Appending the attach to a completed creation: the creation steps stay in
      front, in order and all run, and the attach is last. */
  lemma AttachAfterCreate(cfg: AppConfig, name: string, port: Port, run: RunSpec, w: World, created: seq<Step>)
    requires forall s :: s in created ==>
      s.WriteText? || s.WriteJson? || s == RunContainer(run)
      || s == CopyBriefing(cfg, name) || s == CopySettings(cfg, name)
    requires AllRan(created, w.answers)
    requires CreatedInOrder(cfg, name, port, run, w, created)
    ensures var steps := created + [Attach(name)];
      && (forall s :: s in steps ==>
            s.WriteText? || s.WriteJson? || s == RunContainer(run)
            || s == CopyBriefing(cfg, name) || s == CopySettings(cfg, name) || s == Attach(name))
      && |steps| > 0 && steps[|steps| - 1] == Attach(name)
      && AllRan(steps[..|steps| - 1], w.answers)
      && CreatedInOrder(cfg, name, port, run, w, steps[..|steps| - 1])
  {
    AppendStep(created, Attach(name));
  }

  /** The facts about a trace that grows by one step that the traces above use. */
  lemma AppendStep(steps: seq<Step>, s: Step)
    ensures |steps + [s]| > 0
    ensures (steps + [s])[..|steps + [s]| - 1] == steps
    ensures (steps + [s])[|steps + [s]| - 1] == s
    ensures forall x :: x in steps + [s] <==> x in steps || x == s
  {
  }

  /** `launch_container`: attach to a running container, start and attach to a
      stopped one, or create one and attach to it. */
  function Launch(cfg: AppConfig, workspace: string, port: Port,
                  hash: string -> Digest, w: World): (t: Trace)
    ensures t.result.Success? ==>
      && |t.steps| > 0
      && t.steps[|t.steps| - 1] == Attach(NameFor(workspace, hash))
      && Succeeded(w.answers(Attach(NameFor(workspace, hash))))
    ensures w.exists_.QueryNotRun? ==> t == Trace([], Failure(ContainerQueryFailed))
  {
    var name := NameFor(workspace, hash);
    match w.exists_
    case QueryNotRun => Trace([], Failure(ContainerQueryFailed))
    case Printed(true) => Resume(name, w.running, w.answers)
    case Printed(false) => CreateAndAttach(cfg, name, port, LaunchRun(workspace, port, hash), w)
  }

  /** A running container is only attached to. */
  lemma LaunchRunning(cfg: AppConfig, workspace: string, port: Port, hash: string -> Digest, w: World)
    requires IsRunning(w)
    ensures var name := NameFor(workspace, hash);
            var t := Launch(cfg, workspace, port, hash, w);
            && t.steps == [Attach(name)]
            && (t.result.Success? <==> Succeeded(w.answers(Attach(name))))
  {
  }

  /** A stopped container is started and then attached to; it is not recreated. */
  lemma LaunchStopped(cfg: AppConfig, workspace: string, port: Port, hash: string -> Digest, w: World)
    requires IsStopped(w)
    ensures var name := NameFor(workspace, hash);
            var t := Launch(cfg, workspace, port, hash, w);
            && t.steps == (if Succeeded(w.answers(Start(name))) then [Start(name), Attach(name)]
                           else [Start(name)])
            && (t.result.Success? <==>
                  Succeeded(w.answers(Start(name))) && Succeeded(w.answers(Attach(name))))
  {
  }

  /** Every step of creation succeeding, an absent container is created by
      writing both runtime files, running the container, copying both files in
      and attaching, in this order. */
  lemma LaunchAbsent(cfg: AppConfig, workspace: string, port: Port, hash: string -> Digest, w: World)
    requires IsAbsent(w)
    requires MergeBriefing(w.claudeMd).Success? && MergeSettings(w.settings, port).Success?
    requires forall s :: Succeeded(w.answers(s))
    ensures var name := NameFor(workspace, hash);
            Launch(cfg, workspace, port, hash, w) == Trace(
              [ WriteText(cfg.runtimeClaudeMd, MergeBriefing(w.claudeMd).value),
                WriteJson(cfg.runtimeSettings, MergeSettings(w.settings, port).value),
                RunContainer(LaunchRun(workspace, port, hash)),
                CopyBriefing(cfg, name),
                CopySettings(cfg, name),
                Attach(name) ],
              Success(()))
  {
    var name := NameFor(workspace, hash);
    var run := LaunchRun(workspace, port, hash);
    assert Launch(cfg, workspace, port, hash, w) == CreateAndAttach(cfg, name, port, run, w);
    CreateSucceeds(cfg, name, port, run, w);
    assert Succeeded(w.answers(Attach(name)));
  }

  /** With every step succeeding, creation writes both files, runs the
      container and copies both files in. */
  lemma CreateSucceeds(cfg: AppConfig, name: string, port: Port, run: RunSpec, w: World)
    requires MergeBriefing(w.claudeMd).Success? && MergeSettings(w.settings, port).Success?
    requires forall s :: Succeeded(w.answers(s))
    ensures Create(cfg, name, port, run, w) == Trace(
              [ WriteText(cfg.runtimeClaudeMd, MergeBriefing(w.claudeMd).value),
                WriteJson(cfg.runtimeSettings, MergeSettings(w.settings, port).value),
                RunContainer(run),
                CopyBriefing(cfg, name),
                CopySettings(cfg, name) ],
              Success(()))
  {
    assert Succeeded(w.answers(RunContainer(run)));
    assert RunAndCopy(cfg, name, run, w.answers).steps
        == [RunContainer(run), CopyBriefing(cfg, name), CopySettings(cfg, name)];
  }

  /** An existing container is never created again: the only steps are Start and Attach. */
  lemma LaunchNeverRecreates(cfg: AppConfig, workspace: string, port: Port, hash: string -> Digest, w: World)
    requires w.exists_ == Printed(true)
    ensures var name := NameFor(workspace, hash);
            forall s :: s in Launch(cfg, workspace, port, hash, w).steps ==> s == Start(name) || s == Attach(name)
  {
  }

  /** Attach is issued only once everything before it succeeded: the configs
      were generated and `podman run` succeeded for a new container, `podman
      start` succeeded for a stopped one. It is always the last step. */
  lemma LaunchAttachesOnlyAfterSuccess(cfg: AppConfig, workspace: string, port: Port,
                                       hash: string -> Digest, w: World)
    ensures var name := NameFor(workspace, hash);
            var t := Launch(cfg, workspace, port, hash, w);
            Attach(name) in t.steps ==>
              && t.steps[|t.steps| - 1] == Attach(name)
              && (IsAbsent(w) || IsStopped(w) || IsRunning(w))
              && (IsAbsent(w) ==>
                    && MergeBriefing(w.claudeMd).Success?
                    && MergeSettings(w.settings, port).Success?
                    && Succeeded(w.answers(RunContainer(LaunchRun(workspace, port, hash))))
                    && AllRan(t.steps[..|t.steps| - 1], w.answers))
              && (IsStopped(w) ==> Succeeded(w.answers(Start(name))))
  {
  }

  /** A new container is attached to only after both runtime files were
      written, `podman run` succeeded and both `podman cp` commands started. */
  lemma AttachNeedsWritesAndCopies(cfg: AppConfig, workspace: string, port: Port,
                                   hash: string -> Digest, w: World)
    requires IsAbsent(w)
    ensures var name := NameFor(workspace, hash);
            var t := Launch(cfg, workspace, port, hash, w);
            Attach(name) in t.steps ==>
              && |t.steps| == 6
              && CreatedInOrder(cfg, name, port, LaunchRun(workspace, port, hash), w, t.steps[..5])
              && AllRan(t.steps[..5], w.answers)
  {
    var name := NameFor(workspace, hash);
    var t := Launch(cfg, workspace, port, hash, w);
    assert t == CreateAndAttach(cfg, name, port, LaunchRun(workspace, port, hash), w);
    if Attach(name) in t.steps {
      assert t.steps[..5] == t.steps[..|t.steps| - 1];
    }
  }

  /** Two worlds that differ at most in the exit status (not in whether it
      ran) of `podman cp` steps. */
  ghost predicate DifferOnlyInCopyStatus(w1: World, w2: World)
  {
    && w1.exists_ == w2.exists_ && w1.running == w2.running
    && w1.claudeMd == w2.claudeMd && w1.settings == w2.settings
    && SameButCopyStatus(w1.answers, w2.answers)
  }

  ghost predicate SameButCopyStatus(a1: Answers, a2: Answers)
  {
    forall s :: a1(s) == a2(s) || (s.CopyIn? && a1(s).Exited? && a2(s).Exited?)
  }

  /** The exit status of `podman cp` is ignored: it changes neither the steps nor the result. */
  lemma LaunchIgnoresCopyStatus(cfg: AppConfig, workspace: string, port: Port,
                                hash: string -> Digest, w1: World, w2: World)
    requires DifferOnlyInCopyStatus(w1, w2)
    ensures Launch(cfg, workspace, port, hash, w1) == Launch(cfg, workspace, port, hash, w2)
  {
    var name := NameFor(workspace, hash);
    assert w1.answers(Attach(name)) == w2.answers(Attach(name));
    match w1.exists_
    case QueryNotRun =>
    case Printed(true) =>
      assert w1.answers(Start(name)) == w2.answers(Start(name));
      assert Resume(name, w1.running, w1.answers) == Resume(name, w2.running, w2.answers);
    case Printed(false) =>
      var run := LaunchRun(workspace, port, hash);
      CreateIgnoresCopyStatus(cfg, name, port, run, w1, w2);
      assert CreateAndAttach(cfg, name, port, run, w1) == CreateAndAttach(cfg, name, port, run, w2);
  }

  lemma CreateIgnoresCopyStatus(cfg: AppConfig, name: string, port: Port, run: RunSpec, w1: World, w2: World)
    requires DifferOnlyInCopyStatus(w1, w2)
    ensures Create(cfg, name, port, run, w1) == Create(cfg, name, port, run, w2)
  {
    RunAndCopyIgnoresCopyStatus(cfg, name, run, w1.answers, w2.answers);
    match MergeBriefing(w1.claudeMd) {
      case Failure(_) =>
      case Success(b) =>
        assert w1.answers(WriteText(cfg.runtimeClaudeMd, b)) == w2.answers(WriteText(cfg.runtimeClaudeMd, b));
        match MergeSettings(w1.settings, port) {
          case Failure(_) =>
          case Success(d) =>
            assert w1.answers(WriteJson(cfg.runtimeSettings, d)) == w2.answers(WriteJson(cfg.runtimeSettings, d));
        }
    }
  }

  lemma RunAndCopyIgnoresCopyStatus(cfg: AppConfig, name: string, run: RunSpec, a1: Answers, a2: Answers)
    requires SameButCopyStatus(a1, a2)
    ensures RunAndCopy(cfg, name, run, a1) == RunAndCopy(cfg, name, run, a2)
  {
    assert a1(RunContainer(run)) == a2(RunContainer(run));
    assert a1(CopyBriefing(cfg, name)).NotRun? == a2(CopyBriefing(cfg, name)).NotRun?;
    assert a1(CopySettings(cfg, name)).NotRun? == a2(CopySettings(cfg, name)).NotRun?;
  }

  // ---------------------------------------------------------------- clean

  /** `clean_container`: nothing to do for an absent container; otherwise stop
      it if it runs, remove it, then remove its volume. Stop and remove must
      start but their exit status is ignored; the volume removal is ignored
      entirely. */
  function Clean(workspace: string, hash: string -> Digest, w: World): (t: Trace)
    ensures w.exists_ == Printed(false) ==> t == Done
    ensures w.exists_ == QueryNotRun ==> t == Trace([], Failure(ContainerQueryFailed))
    ensures w.exists_ == Printed(true) && w.running == QueryNotRun ==>
      t == Trace([], Failure(RunningQueryFailed))
    ensures forall s :: s in t.steps ==>
      s in [Stop(NameFor(workspace, hash)), Remove(NameFor(workspace, hash)),
            RemoveVolume(VolumeName(NameFor(workspace, hash)))]
    ensures RemoveVolume(VolumeName(NameFor(workspace, hash))) in t.steps <==>
      && w.exists_ == Printed(true) && w.running.Printed?
      && (w.running == Printed(true) ==> !w.answers(Stop(NameFor(workspace, hash))).NotRun?)
      && !w.answers(Remove(NameFor(workspace, hash))).NotRun?
    ensures t.result.Success? <==>
      w.exists_ == Printed(false) || RemoveVolume(VolumeName(NameFor(workspace, hash))) in t.steps
  {
    var name := NameFor(workspace, hash);
    var removal :=
      Then(Remove(name), w.answers(Remove(name)).NotRun?, RemoveFailed,
           Trace([RemoveVolume(VolumeName(name))], Success(())));
    match w.exists_
    case QueryNotRun => Trace([], Failure(ContainerQueryFailed))
    case Printed(false) => Done
    case Printed(true) =>
      match w.running
      case QueryNotRun => Trace([], Failure(RunningQueryFailed))
      case Printed(true) => Then(Stop(name), w.answers(Stop(name)).NotRun?, StopFailed, removal)
      case Printed(false) => removal
  }

  /** An existing container is stopped only if running, then removed, then its
      volume is removed, and the clean succeeds whenever stop and remove could be run. */
  lemma CleanExisting(workspace: string, hash: string -> Digest, w: World)
    requires IsStopped(w) || IsRunning(w)
    requires !w.answers(Stop(NameFor(workspace, hash))).NotRun?
    requires !w.answers(Remove(NameFor(workspace, hash))).NotRun?
    ensures var name := NameFor(workspace, hash);
            Clean(workspace, hash, w) == Trace(
              (if IsRunning(w) then [Stop(name)] else [])
                + [Remove(name), RemoveVolume(VolumeName(name))],
              Success(()))
  {
  }

  /** A running container whose `podman stop` cannot be started is neither
      removed nor has its volume removed: the clean fails right after the stop. */
  lemma CleanStopNotRun(workspace: string, hash: string -> Digest, w: World)
    requires IsRunning(w)
    requires w.answers(Stop(NameFor(workspace, hash))).NotRun?
    ensures Clean(workspace, hash, w) == Trace([Stop(NameFor(workspace, hash))], Failure(StopFailed))
  {
  }

  /** When `podman rm` cannot be started the volume is kept and the clean
      fails with the removal error, remove being the last step. */
  lemma CleanRemoveNotRun(workspace: string, hash: string -> Digest, w: World)
    requires IsStopped(w) || IsRunning(w)
    requires IsRunning(w) ==> !w.answers(Stop(NameFor(workspace, hash))).NotRun?
    requires w.answers(Remove(NameFor(workspace, hash))).NotRun?
    ensures var name := NameFor(workspace, hash);
            var t := Clean(workspace, hash, w);
            && t.result == Failure(RemoveFailed)
            && RemoveVolume(VolumeName(name)) !in t.steps
            && t.steps == (if IsRunning(w) then [Stop(name)] else []) + [Remove(name)]
  {
  }

  /** Two worlds that differ at most in the exit status of stop and remove and
      in anything about the volume removal. */
  ghost predicate DifferOnlyInIgnoredCleanAnswers(w1: World, w2: World)
  {
    && w1.exists_ == w2.exists_ && w1.running == w2.running
    && forall s :: w1.answers(s) == w2.answers(s)
                   || s.RemoveVolume?
                   || ((s.Stop? || s.Remove?) && w1.answers(s).Exited? && w2.answers(s).Exited?)
  }

  /** Clean does not look at the exit status of stop and remove, nor at the
      volume removal at all. */
  lemma CleanIgnoresStatuses(workspace: string, hash: string -> Digest, w1: World, w2: World)
    requires DifferOnlyInIgnoredCleanAnswers(w1, w2)
    ensures Clean(workspace, hash, w1) == Clean(workspace, hash, w2)
  {
    var name := NameFor(workspace, hash);
    assert w1.answers(Stop(name)).NotRun? == w2.answers(Stop(name)).NotRun?;
    assert w1.answers(Remove(name)).NotRun? == w2.answers(Remove(name)).NotRun?;
  }

  /** The volume the launch of a workspace mounts (the argument after the
      second `-v`) is the volume a clean of that workspace removes. Together
      with `LaunchRunsOnlyItsOwnSpec` this covers every container a launch creates. */
  lemma CleanRemovesTheLaunchedVolume(workspace: string, port: Port, hash: string -> Digest,
                                      w: World, volume: string)
    requires RemoveVolume(volume) in Clean(workspace, hash, w).steps
    ensures var args := RunArgs(LaunchRun(workspace, port, hash));
            |args| == 15 && args[7] == "-v" && args[8] == volume + VolumeMount
  {
    CleanRemovesOwnVolume(workspace, hash, w, volume);
    LaunchMountsItsVolume(workspace, port, hash);
  }

  /** The only volume a clean removes is the workspace container's. */
  lemma CleanRemovesOwnVolume(workspace: string, hash: string -> Digest, w: World, volume: string)
    requires RemoveVolume(volume) in Clean(workspace, hash, w).steps
    ensures volume == VolumeName(NameFor(workspace, hash))
  {
  }

  /** The run step of a launch mounts the workspace at `/app` and the
      workspace's volume at the agent's configuration directory. */
  lemma LaunchMountsItsVolume(workspace: string, port: Port, hash: string -> Digest)
    ensures var args := RunArgs(LaunchRun(workspace, port, hash));
            && |args| == 15 && args[4] == NameFor(workspace, hash)
            && args[5] == "-v" && args[6] == workspace + WorkspaceMount
            && args[7] == "-v" && args[8] == VolumeName(NameFor(workspace, hash)) + VolumeMount
  {
    var run := LaunchRun(workspace, port, hash);
    var name := ContainerName(run.digest);
    ArgvLayout(name, run.workspace, VolumeName(name), run.port, Image.ImageName(run.workspace, run.digest));
  }

  /** The only container a launch creates is the workspace's own. */
  lemma LaunchRunsOnlyItsOwnSpec(cfg: AppConfig, workspace: string, port: Port,
                                 hash: string -> Digest, w: World)
    ensures forall r :: RunContainer(r) in Launch(cfg, workspace, port, hash, w).steps ==>
              r == LaunchRun(workspace, port, hash)
  {
  }

  /** Cleaning one workspace never touches the container or volume of a
      workspace whose digest differs in the first six bytes. */
  lemma CleanIsolated(a: string, b: string, hash: string -> Digest, w: World)
    requires hash(a)[..6] != hash(b)[..6]
    ensures var other := NameFor(b, hash);
            forall s :: s in Clean(a, hash, w).steps ==>
              s != Stop(other) && s != Remove(other) && s != RemoveVolume(VolumeName(other))
  {
    var mine := NameFor(a, hash);
    var other := NameFor(b, hash);
    ContainerNameInjective(hash(a), hash(b));
    VolumeNameRoundTrip(mine);
    VolumeNameRoundTrip(other);
  }
}

=== FILE: credentials.dfy ===
/** The credential guard of src/credentials.rs: which paths look like secrets,
    the bounded walk over the workspace that collects them, and the decision
    whether to go on. The file system is a tree value; the prompt's answer is
    a parameter. */
module Credentials {
  import opened Types
  import opened Text
  import opened Paths

  /** File names that are credentials wherever they are. */
  const Patterns: seq<string> := [
    ".env", ".env.local", ".env.production", ".env.staging",
    "id_rsa", "id_ed25519", "id_ecdsa", "id_dsa",
    ".npmrc", ".pypirc", ".netrc",
    "credentials.json", "service-account.json", "terraform.tfstate"]

  /** Extensions of key stores and secret variable files. */
  const Extensions: seq<string> := ["pem", "key", "p12", "pfx", "jks", "keystore", "tfvars"]

  /** Path fragments of credential directories and files. */
  const DirPatterns: seq<string> := [".aws/credentials", ".aws/config", ".ssh/", ".gnupg/"]

  /** `iter().any(|p| s.contains(p))`. */
  function ContainsAny(s: string, pats: seq<string>): (r: bool)
    ensures r <==> exists i :: 0 <= i < |pats| && Contains(s, pats[i])
  {
    if |pats| == 0 then false
    else Contains(s, pats[0]) || ContainsAny(s, pats[1..])
  }

  /** `is_credential_file`: a path without a file name never is; otherwise its
      name is a known credential name, its extension a key-store extension,
      or the whole path contains a credential directory fragment. */
  function IsCredentialFile(path: string): (r: bool)
    ensures r ==> FileName(path).Some?
  {
    match FileName(path)
    case None => false
    case Some(name) =>
      || name in Patterns
      || (Extension(path).Some? && Extension(path).value in Extensions)
      || ContainsAny(path, DirPatterns)
  }

  /** A file with one of the known credential names is flagged in any directory. */
  lemma PatternNameFlagged(dir: string, name: string)
    requires name in Patterns
    ensures IsCredentialFile(Join(dir, name))
  {
    PatternsAreFileNames(name);
    FileNameOfJoin(dir, name);
  }

  /** Every credential name is a plain file name. */
  lemma PatternsAreFileNames(name: string)
    requires name in Patterns
    ensures IsFileName(name)
  {
    var i :| 0 <= i < |Patterns| && Patterns[i] == name;
    if i < 5 { EnvAndRsaNames(i); }
    else if i < 10 { KeyAndRcNames(i); }
    else { OtherNames(i); }
  }

  /** The credential names are file names, checked a few at a time. */
  lemma EnvAndRsaNames(i: nat)
    requires 0 <= i < 5
    ensures IsFileName(Patterns[i])
  {
    if i == 0 { assert Patterns[i] == ".env"; }
    else if i == 1 { assert Patterns[i] == ".env.local"; }
    else if i == 2 { assert Patterns[i] == ".env.production"; }
    else if i == 3 { assert Patterns[i] == ".env.staging"; }
    else { assert Patterns[i] == "id_rsa"; }
  }

  lemma KeyAndRcNames(i: nat)
    requires 5 <= i < 10
    ensures IsFileName(Patterns[i])
  {
    if i == 5 { assert Patterns[i] == "id_ed25519"; }
    else if i == 6 { assert Patterns[i] == "id_ecdsa"; }
    else if i == 7 { assert Patterns[i] == "id_dsa"; }
    else if i == 8 { assert Patterns[i] == ".npmrc"; }
    else { assert Patterns[i] == ".pypirc"; }
  }

  lemma OtherNames(i: nat)
    requires 10 <= i < 14
    ensures IsFileName(Patterns[i])
  {
    if i == 10 { assert Patterns[i] == ".netrc"; }
    else if i == 11 { assert Patterns[i] == "credentials.json"; }
    else if i == 12 { assert Patterns[i] == "service-account.json"; }
    else { assert Patterns[i] == "terraform.tfstate"; }
  }

  /** A file whose name ends in `.` and a key-store extension is flagged in any
      directory, provided the part before the dot is a non-empty name. */
  lemma ExtensionFlagged(dir: string, stem: string, ext: string)
    requires ext in Extensions
    requires |stem| > 0 && '/' !in stem
    ensures IsCredentialFile(Join(dir, stem + "." + ext))
  {
    var name := stem + "." + ext;
    assert '.' !in ext && '/' !in ext;
    assert '/' !in name by {
      assert forall k :: 0 <= k < |name| ==> name[k] == (if k < |stem| then stem[k] else if k == |stem| then '.' else ext[k - |stem| - 1]);
    }
    assert name != "" && name != "." && name != ".." by {
      assert |name| >= 4;
    }
    FileNameOfJoin(dir, name);
    assert name[|stem| + 1..] == ext;
    var li := LastIndexOf(name, '.');
    assert name[|stem|] == '.';
    assert forall k :: |stem| < k < |name| ==> name[k] == ext[k - |stem| - 1];
    assert li.Some? && li.value >= |stem|;
  }

  /** Every file directly inside a `.ssh` or `.gnupg` directory is flagged, wherever that directory is. */
  lemma SecretDirectoryFlagged(base: string, dir: string, name: string)
    requires dir == ".ssh" || dir == ".gnupg"
    requires IsFileName(name)
    ensures IsCredentialFile(Join(Join(base, dir), name))
  {
    var x := Join(base, dir);
    var p := Join(x, name);
    FileNameOfJoin(x, name);
    assert x[|x| - |dir|..] == dir;
    assert p == x + "/" + name;
    var pat := dir + "/";
    var at := |x| - |dir|;
    assert p[at..at + |pat|] == pat;
    ContainsAt(p, pat, at);
    if dir == ".ssh" {
      assert pat == DirPatterns[2];
    } else {
      assert pat == DirPatterns[3];
    }
  }

  /** Any named path containing a credential directory fragment is flagged,
      whatever its file name and extension. */
  lemma DirPatternFlagged(p: string)
    requires FileName(p).Some? && ContainsAny(p, DirPatterns)
    ensures IsCredentialFile(p)
  {
  }

  /** `credentials` and `config` directly inside a `.aws` directory are
      flagged, wherever that directory is. */
  lemma AwsFileFlagged(base: string, name: string)
    requires name == "credentials" || name == "config"
    ensures IsCredentialFile(Join(Join(base, ".aws"), name))
  {
    var p := Join(Join(base, ".aws"), name);
    assert IsFileName(name);
    FileNameOfJoin(Join(base, ".aws"), name);
    JoinedContains(base, ".aws", name);
    AwsFragments();
    if name == "credentials" {
      FragmentFlagged(p, 0);
    } else {
      FragmentFlagged(p, 1);
    }
  }

  /** The first two fragments are `.aws/` followed by a file name. */
  lemma AwsFragments()
    ensures DirPatterns[0] == ".aws" + "/" + "credentials"
    ensures DirPatterns[1] == ".aws" + "/" + "config"
  {
  }

  /** A named path containing the `k`-th credential directory fragment is flagged. */
  lemma FragmentFlagged(p: string, k: nat)
    requires FileName(p).Some? && k < |DirPatterns| && Contains(p, DirPatterns[k])
    ensures IsCredentialFile(p)
  {
    assert ContainsAny(p, DirPatterns);
  }

  /** `base/dir/name` contains `dir/name`. */
  lemma JoinedContains(base: string, dir: string, name: string)
    requires |dir| > 0 && dir[|dir| - 1] != '/'
    ensures Contains(Join(Join(base, dir), name), dir + "/" + name)
  {
    var x := Join(base, dir);
    var p := Join(x, name);
    var pat := dir + "/" + name;
    var front := x[..|x| - |dir|];
    assert x == front + dir;
    assert x[|x| - 1] == dir[|dir| - 1];
    assert p == front + dir + "/" + name;
    OccursAfterFront(front, dir, "/", name);
    ContainsAt(p, pat, |front|);
  }

  /** The path `/home/user/.aws/credentials` is flagged. */
  lemma AwsCredentialsExample()
    ensures IsCredentialFile("/home/user/.aws/credentials")
  {
    var home := "/home/user";
    var aws := home + "/" + ".aws";
    AwsFileFlagged(home, "credentials");
    assert home[|home| - 1] == 'r';
    assert Join(home, ".aws") == aws;
    assert aws[|aws| - 1] == 's';
    assert Join(aws, "credentials") == aws + "/" + "credentials";
    AwsPathSpelledOut();
  }

  lemma AwsPathSpelledOut()
    ensures "/home/user" + "/" + ".aws" + "/" + "credentials" == "/home/user/.aws/credentials"
  {
  }

  /** Every credential directory fragment starts with a dot followed by `a`,
      `s` or `g`; such a dot at `k` is where one of them could start. */
  predicate FragmentDot(s: string, k: int)
    requires 0 <= k < |s| - 1
  {
    s[k] == '.' && (s[k + 1] == 'a' || s[k + 1] == 's' || s[k + 1] == 'g')
  }

  /** A fragment starting `.a`, `.s` or `.g` does not occur where no dot could start one. */
  lemma NoFragment(s: string, pat: string)
    requires |pat| >= 2 && pat[0] == '.' && (pat[1] == 'a' || pat[1] == 's' || pat[1] == 'g')
    requires forall k :: 0 <= k < |s| - 1 ==> !FragmentDot(s, k)
    ensures !Contains(s, pat)
  {
    if j :| OccursAt(s, pat, j) {
      OccurrenceStartsAtDot(s, pat, j);
    }
  }

  lemma OccurrenceStartsAtDot(s: string, pat: string, j: int)
    requires |pat| >= 2 && pat[0] == '.' && (pat[1] == 'a' || pat[1] == 's' || pat[1] == 'g')
    requires OccursAt(s, pat, j)
    ensures 0 <= j < |s| - 1 && FragmentDot(s, j)
  {
    assert s[j..j + |pat|][0] == s[j] && s[j..j + |pat|][1] == s[j + 1];
  }

  /** Nor does any of several such fragments. */
  lemma {:induction false} NoFragments(s: string, pats: seq<string>)
    requires forall i :: 0 <= i < |pats| ==> |pats[i]| >= 2 && pats[i][0] == '.'
    requires forall i :: 0 <= i < |pats| ==> pats[i][1] == 'a' || pats[i][1] == 's' || pats[i][1] == 'g'
    requires forall k :: 0 <= k < |s| - 1 ==> !FragmentDot(s, k)
    ensures !ContainsAny(s, pats)
  {
    if |pats| > 0 {
      NoFragment(s, pats[0]);
      NoFragments(s, pats[1..]);
    }
  }

  /** A file `stem.ext` is not flagged when it is no credential name, `ext` is
      no key-store extension, and no dot of its path can start a credential
      directory fragment (the directory has no dot and `ext` does not start
      with `a`, `s` or `g`). */
  lemma OrdinaryFileNotFlagged(dir: string, stem: string, ext: string)
    requires '.' !in dir
    requires |stem| > 0 && '.' !in stem && '/' !in stem
    requires |ext| > 0 && '.' !in ext && '/' !in ext
    requires ext[0] != 'a' && ext[0] != 's' && ext[0] != 'g'
    requires ext !in Extensions && stem + "." + ext !in Patterns
    ensures !IsCredentialFile(Join(dir, stem + "." + ext))
  {
    var name := stem + "." + ext;
    var p := Join(dir, name);
    StemDotExt(stem, ext);
    FileNameOfJoin(dir, name);
    DotsOfJoin(dir, stem, ext);
    DirPatternsStartWithDots();
    NoFragments(p, DirPatterns);
    assert Extension(p) == Some(ext);
  }

  lemma DirPatternsStartWithDots()
    ensures forall i :: 0 <= i < |DirPatterns| ==> |DirPatterns[i]| >= 2 && DirPatterns[i][0] == '.'
    ensures forall i :: 0 <= i < |DirPatterns| ==>
      DirPatterns[i][1] == 'a' || DirPatterns[i][1] == 's' || DirPatterns[i][1] == 'g'
  {
    var d := DirPatterns;
    assert d[0][0] == d[1][0] == d[2][0] == d[3][0] == '.';
    assert d[0][1] == d[1][1] == 'a' && d[2][1] == 's' && d[3][1] == 'g';
  }

  /** `stem.ext` is a file name whose extension is `ext`, and its only dot is
      the one before `ext`. */
  lemma StemDotExt(stem: string, ext: string)
    requires |stem| > 0 && '.' !in stem && '/' !in stem
    requires |ext| > 0 && '.' !in ext && '/' !in ext
    ensures IsFileName(stem + "." + ext) && NameExtension(stem + "." + ext) == Some(ext)
    ensures forall k :: 0 <= k < |stem + "." + ext| && (stem + "." + ext)[k] == '.' ==> k == |stem|
  {
    var name := stem + "." + ext;
    assert forall k :: 0 <= k < |name| ==>
      name[k] == (if k < |stem| then stem[k] else if k == |stem| then '.' else ext[k - |stem| - 1]);
    assert '/' !in name;
    assert |name| >= 3;
    var li := LastIndexOf(name, '.');
    assert li.Some? && li.value >= |stem| && li.value <= |stem|;
    assert name[|stem| + 1..] == ext;
  }

  /** In `stem.ext` with an `ext` not starting with `a`, `s` or `g`, no dot
      can start a credential directory fragment. */
  lemma NameHasNoFragmentDot(stem: string, ext: string)
    requires |stem| > 0 && '.' !in stem && '/' !in stem
    requires |ext| > 0 && '.' !in ext && '/' !in ext
    requires ext[0] != 'a' && ext[0] != 's' && ext[0] != 'g'
    ensures forall k :: 0 <= k < |stem + "." + ext| - 1 ==> !FragmentDot(stem + "." + ext, k)
  {
    var name := stem + "." + ext;
    StemDotExt(stem, ext);
    assert name[|stem| + 1] == ext[0];
  }

  /** Putting a dot-free prefix in front of a path adds no fragment dot. */
  lemma DotFreePrefix(pre: string, s: string)
    requires '.' !in pre
    requires forall k :: 0 <= k < |s| - 1 ==> !FragmentDot(s, k)
    ensures forall k :: 0 <= k < |pre + s| - 1 ==> !FragmentDot(pre + s, k)
  {
    forall k | 0 <= k < |pre + s| - 1
      ensures !FragmentDot(pre + s, k)
    {
      if k >= |pre| {
        assert (pre + s)[k] == s[k - |pre|] && (pre + s)[k + 1] == s[k + 1 - |pre|];
        assert !FragmentDot(s, k - |pre|);
      } else {
        assert (pre + s)[k] == pre[k];
      }
    }
  }

  /** In `dir/stem.ext` with a dot-free `dir` and an `ext` not starting with
      `a`, `s` or `g`, no dot can start a credential directory fragment. */
  lemma DotsOfJoin(dir: string, stem: string, ext: string)
    requires '.' !in dir
    requires |stem| > 0 && '.' !in stem && '/' !in stem
    requires |ext| > 0 && '.' !in ext && '/' !in ext
    requires ext[0] != 'a' && ext[0] != 's' && ext[0] != 'g'
    ensures var p := Join(dir, stem + "." + ext);
      forall k :: 0 <= k < |p| - 1 ==> !FragmentDot(p, k)
  {
    var name := stem + "." + ext;
    NameHasNoFragmentDot(stem, ext);
    var p := Join(dir, name);
    var pre := p[..|p| - |name|];
    assert p == pre + name;
    assert '.' !in pre by {
      if |dir| == 0 || dir[|dir| - 1] == '/' {
        assert pre == dir;
      } else {
        assert pre == dir + "/";
      }
    }
    DotFreePrefix(pre, name);
  }

  /** An ordinary source file is not flagged. */
  lemma SourceFileNotFlagged()
    ensures !IsCredentialFile("/project/src/main.rs")
  {
    assert Join("/project/src", "main" + "." + "rs") == "/project/src/main.rs";
    OrdinaryFileNotFlagged("/project/src", "main", "rs");
  }

  /** An ordinary JSON configuration file is not flagged. */
  lemma ConfigFileNotFlagged()
    ensures !IsCredentialFile("/project/config.json")
  {
    var dir, stem, ext := "/project", "config", "json";
    assert '.' !in dir && '.' !in stem && '/' !in stem && '.' !in ext && '/' !in ext;
    assert ext !in Extensions;
    assert forall i :: 0 <= i < |Patterns| ==> Patterns[i] != stem + "." + ext by {
      assert |stem + "." + ext| == 11;
    }
    assert Join(dir, stem + "." + ext) == "/project/config.json";
    OrdinaryFileNotFlagged(dir, stem, ext);
  }

  // ---------------------------------------------------------------- the workspace walk

  /** An entry of the workspace tree. `Other` is anything that is neither a
      regular file nor a directory: symbolic links (which the walk does not
      follow), sockets, pipes and devices. */
  datatype Entry =
    | File(name: string)
    | Other(name: string)
    | Dir(name: string, children: seq<Entry>)

  /** How deep below the workspace root the walk looks (the root is depth 0). */
  const MaxDepth: nat := 5

  /** Names whose entries are skipped together with everything below them. */
  const SkippedNames: seq<string> := ["node_modules", ".git", "target", "__pycache__", ".venv", "venv"]

  /** The walk of one entry at `path`, filtered by `name`: the regular files
      that `keep` accepts, in pre-order. */
  function Walk(e: Entry, path: string, name: string, depth: nat, keep: string -> bool): (r: seq<string>)
    ensures forall k :: 0 <= k < |r| ==> keep(r[k]) && path <= r[k]
    decreases e, 1
  {
    if depth > MaxDepth || name in SkippedNames then []
    else match e
      case File(_) => if keep(path) then [path] else []
      case Other(_) => []
      case Dir(_, children) => WalkChildren(children, path, depth + 1, keep)
  }

  /** The walks of a directory's children, in the order the directory lists them. */
  function WalkChildren(cs: seq<Entry>, parent: string, depth: nat, keep: string -> bool): (r: seq<string>)
    ensures forall k :: 0 <= k < |r| ==> keep(r[k]) && parent <= r[k]
    decreases cs, 0
  {
    if |cs| == 0 then []
    else
      var c := cs[0];
      var first := Walk(c, Join(parent, c.name), c.name, depth, keep);
      JoinExtends(parent, c.name);
      first + WalkChildren(cs[1..], parent, depth, keep)
  }

  lemma JoinExtends(base: string, name: string)
    ensures base <= Join(base, name)
  {
  }

  /** The name the walk filters the root by: its file name, or the whole path
      when it has none (as for `/`). */
  function RootName(workspace: string): (r: string)
    ensures IsFileName(r) || r == workspace
    ensures FileName(workspace).Some? ==> r == FileName(workspace).value
  {
    match FileName(workspace)
    case Some(n) => n
    case None => workspace
  }

  /** `scan_workspace`: every flagged regular file within five levels of the
      workspace, outside skipped directories. Every result lies under the
      workspace, so it can be shown relative to it. */
  function Scan(workspace: string, root: Entry): (r: seq<string>)
    ensures forall k :: 0 <= k < |r| ==> IsCredentialFile(r[k]) && workspace <= r[k]
  {
    Walk(root, workspace, RootName(workspace), 0, IsCredentialFile)
  }

  // ---------------------------------------------------------------- reference definition

  /** `p` is reported by following `route` (child indices) from `e` at `path`:
      every entry on the way is within the depth bound and not skipped, every
      entry before the last is a directory, and the last is a regular file
      that `keep` accepts. */
  ghost predicate ReachedBy(e: Entry, path: string, name: string, depth: nat, keep: string -> bool,
                            route: seq<nat>, p: string)
    decreases |route|
  {
    && depth <= MaxDepth
    && name !in SkippedNames
    && if |route| == 0 then e.File? && p == path && keep(path)
       else
         && e.Dir? && route[0] < |e.children|
         && var c := e.children[route[0]];
            ReachedBy(c, Join(path, c.name), c.name, depth + 1, keep, route[1..], p)
  }

  /** The walk reports exactly the paths reachable by some route. */
  lemma WalkSound(e: Entry, path: string, name: string, depth: nat, keep: string -> bool, p: string)
    ensures p in Walk(e, path, name, depth, keep) ==>
      exists route :: ReachedBy(e, path, name, depth, keep, route, p)
    ensures (exists route :: ReachedBy(e, path, name, depth, keep, route, p)) ==>
      p in Walk(e, path, name, depth, keep)
  {
    if p in Walk(e, path, name, depth, keep) {
      var route := WalkReported(e, path, name, depth, keep, p);
    }
    forall route | ReachedBy(e, path, name, depth, keep, route, p)
      ensures p in Walk(e, path, name, depth, keep)
    {
      WalkComplete(e, path, name, depth, keep, route, p);
    }
  }

  /** Every path the walk reports has a route to it. */
  lemma {:induction false} WalkReported(e: Entry, path: string, name: string, depth: nat, keep: string -> bool, p: string)
      returns (route: seq<nat>)
    requires p in Walk(e, path, name, depth, keep)
    ensures ReachedBy(e, path, name, depth, keep, route, p)
    decreases e, 1
  {
    if e.File? {
      route := [];
    } else {
      var i, rest := WalkChildrenReported(e.children, path, depth + 1, keep, p);
      route := [i] + rest;
      assert route[1..] == rest;
    }
  }

  /** Every path the children's walk reports has a route from one of them. */
  lemma {:induction false} WalkChildrenReported(cs: seq<Entry>, parent: string, depth: nat, keep: string -> bool, p: string)
      returns (i: nat, route: seq<nat>)
    requires p in WalkChildren(cs, parent, depth, keep)
    ensures i < |cs| && ReachedBy(cs[i], Join(parent, cs[i].name), cs[i].name, depth, keep, route, p)
    decreases cs, 0
  {
    var c := cs[0];
    var first := Walk(c, Join(parent, c.name), c.name, depth, keep);
    assert WalkChildren(cs, parent, depth, keep) == first + WalkChildren(cs[1..], parent, depth, keep);
    if p in first {
      i := 0;
      route := WalkReported(c, Join(parent, c.name), c.name, depth, keep, p);
    } else {
      var j;
      j, route := WalkChildrenReported(cs[1..], parent, depth, keep, p);
      i := j + 1;
      assert cs[1..][j] == cs[i];
    }
  }

  /** Every path some route reaches is reported by the walk. */
  lemma {:induction false} WalkComplete(e: Entry, path: string, name: string, depth: nat, keep: string -> bool,
                                        route: seq<nat>, p: string)
    requires ReachedBy(e, path, name, depth, keep, route, p)
    ensures p in Walk(e, path, name, depth, keep)
    decreases |route|
  {
    if |route| > 0 {
      var i := route[0];
      var c := e.children[i];
      WalkComplete(c, Join(path, c.name), c.name, depth + 1, keep, route[1..], p);
      WalkChildrenContains(e.children, path, depth + 1, keep, i, p);
    }
  }

  /** What one child's walk reports, the children's walk reports. */
  lemma {:induction false} WalkChildrenContains(cs: seq<Entry>, parent: string, depth: nat, keep: string -> bool,
                                                i: nat, p: string)
    requires i < |cs| && p in Walk(cs[i], Join(parent, cs[i].name), cs[i].name, depth, keep)
    ensures p in WalkChildren(cs, parent, depth, keep)
    decreases i
  {
    if i > 0 {
      assert cs[1..][i - 1] == cs[i];
      WalkChildrenContains(cs[1..], parent, depth, keep, i - 1, p);
    }
  }

  /** A route from the root never goes deeper than five levels. */
  lemma {:induction false} RoutesAreShallow(e: Entry, path: string, name: string, depth: nat, keep: string -> bool,
                                            route: seq<nat>, p: string)
    requires ReachedBy(e, path, name, depth, keep, route, p)
    ensures depth + |route| <= MaxDepth
    decreases |route|
  {
    if |route| > 0 {
      var c := e.children[route[0]];
      RoutesAreShallow(c, Join(path, c.name), c.name, depth + 1, keep, route[1..], p);
    }
  }

  /** The entry reached from `e` by following `route`, when every step exists. */
  ghost function Below(e: Entry, route: seq<nat>): Entry
    decreases |route|
  {
    if |route| == 0 || !e.Dir? || route[0] >= |e.children| then e
    else Below(e.children[route[0]], route[1..])
  }

  /** No entry on the way to a reported file is named like a skipped
      directory: a skipped directory hides everything below it. */
  lemma {:induction false} RouteAvoidsSkipped(e: Entry, path: string, name: string, depth: nat, keep: string -> bool,
                                              route: seq<nat>, p: string)
    requires ReachedBy(e, path, name, depth, keep, route, p)
    ensures forall k :: 1 <= k <= |route| ==> Below(e, route[..k]).name !in SkippedNames
    decreases |route|
  {
    if |route| > 0 {
      var c := e.children[route[0]];
      RouteAvoidsSkipped(c, Join(path, c.name), c.name, depth + 1, keep, route[1..], p);
      forall k | 1 <= k <= |route| ensures Below(e, route[..k]).name !in SkippedNames {
        assert route[..k][1..] == route[1..][..k - 1];
        if k == 1 {
          assert Below(c, route[..k][1..]) == c;
        } else {
          assert Below(c, route[1..][..k - 1]).name !in SkippedNames;
        }
      }
    }
  }

  /** `scan_workspace` reports exactly the flagged regular files reachable
      from the workspace in at most five steps through directories that are
      not skipped; a workspace itself named like a skipped directory yields nothing. */
  lemma ScanSpec(workspace: string, root: Entry, p: string)
    ensures p in Scan(workspace, root) ==>
      exists route :: ReachedBy(root, workspace, RootName(workspace), 0, IsCredentialFile, route, p)
    ensures (exists route :: ReachedBy(root, workspace, RootName(workspace), 0, IsCredentialFile, route, p)) ==>
      p in Scan(workspace, root)
    ensures RootName(workspace) in SkippedNames ==> Scan(workspace, root) == []
  {
    WalkSound(root, workspace, RootName(workspace), 0, IsCredentialFile, p);
  }

  // ---------------------------------------------------------------- the decision

  /** `check_credentials`: go on without asking when nothing is flagged;
      otherwise the operator's answer decides, and a failed prompt is an error. */
  function CheckCredentials(workspace: string, root: Entry, answer: Option<bool>): (r: Result<bool>)
    ensures Scan(workspace, root) == [] ==> r == Success(true)
    ensures Scan(workspace, root) != [] ==>
      r == (if answer.Some? then Success(answer.value) else Failure(PromptFailed))
  {
    if Scan(workspace, root) == [] then Success(true)
    else match answer
      case None => Failure(PromptFailed)
      case Some(proceed) => Success(proceed)
  }

  /** No credential name is also the name of a skipped directory, so a
      credential file is never hidden by its own name. */
  lemma PatternsNotSkipped(n: string)
    requires n in Patterns
    ensures n !in SkippedNames
  {
  }

  /** A flagged regular file directly in the workspace is reported by the scan. */
  lemma TopLevelFileScanned(workspace: string, children: seq<Entry>, i: nat)
    requires RootName(workspace) !in SkippedNames
    requires i < |children| && children[i].File? && children[i].name !in SkippedNames
    requires IsCredentialFile(Join(workspace, children[i].name))
    ensures Join(workspace, children[i].name) in Scan(workspace, Dir(RootName(workspace), children))
  {
    var root := Dir(RootName(workspace), children);
    var c := children[i];
    var p := Join(workspace, c.name);
    assert ReachedBy(c, p, c.name, 1, IsCredentialFile, [], p);
    assert ReachedBy(root, workspace, RootName(workspace), 0, IsCredentialFile, [i], p);
    ScanSpec(workspace, root, p);
  }

  /** A workspace holding a file with a credential name at its top level goes
      on exactly when the operator agrees. */
  lemma TopLevelSecretNeedsConsent(workspace: string, children: seq<Entry>, i: nat, answer: Option<bool>)
    requires RootName(workspace) !in SkippedNames
    requires i < |children| && children[i].File? && children[i].name in Patterns
    ensures CheckCredentials(workspace, Dir(RootName(workspace), children), answer)
         == (if answer.Some? then Success(answer.value) else Failure(PromptFailed))
  {
    PatternNameFlagged(workspace, children[i].name);
    PatternsNotSkipped(children[i].name);
    TopLevelFileScanned(workspace, children, i);
  }
}

=== FILE: hex.dfy ===
/** Bytes, SHA-256 digests as opaque 32-byte values, and lower-case hexadecimal
    encoding as the `hex::encode` crate function produces it. */
module Hex {
  import opened Types

  newtype byte = x: int | 0 <= x < 256

  /** A SHA-256 digest. The hash function itself is a parameter of the model. */
  type Digest = d: seq<byte> | |d| == 32 witness seq(32, _ => 0)

  const LowerDigits: string := "0123456789abcdef"

  predicate IsLowerHexDigit(c: char)
  {
    '0' <= c <= '9' || 'a' <= c <= 'f'
  }

  predicate IsLowerHex(s: string)
  {
    forall i :: 0 <= i < |s| ==> IsLowerHexDigit(s[i])
  }

  function DigitChar(n: int): (c: char)
    requires 0 <= n < 16
    ensures IsLowerHexDigit(c)
  {
    LowerDigits[n]
  }

  function DigitValue(c: char): (n: int)
    requires IsLowerHexDigit(c)
    ensures 0 <= n < 16 && DigitChar(n) == c
  {
    if '0' <= c <= '9' then c as int - '0' as int else c as int - 'a' as int + 10
  }

  /** Two characters per byte, high nibble first. */
  function EncodeByte(b: byte): string
  {
    [DigitChar(b as int / 16), DigitChar(b as int % 16)]
  }

  /** `hex::encode`: the lower-case hexadecimal text of a byte string. */
  function Encode(bs: seq<byte>): (r: string)
    ensures |r| == 2 * |bs|
    ensures IsLowerHex(r)
  {
    if |bs| == 0 then [] else EncodeByte(bs[0]) + Encode(bs[1..])
  }

  /** Reads lower-case hexadecimal text back into bytes; the partner of `Encode`. */
  function Decode(s: string): Option<seq<byte>>
    decreases |s|
  {
    if |s| == 0 then Some([])
    else if |s| == 1 || !IsLowerHexDigit(s[0]) || !IsLowerHexDigit(s[1]) then None
    else match Decode(s[2..])
      case None => None
      case Some(rest) => Some([(16 * DigitValue(s[0]) + DigitValue(s[1])) as byte] + rest)
  }

  /** Decoding undoes encoding, so the encoding loses no information. */
  lemma {:induction false} DecodeEncode(bs: seq<byte>)
    ensures Decode(Encode(bs)) == Some(bs)
  {
    if |bs| > 0 {
      DecodeEncode(bs[1..]);
      DecodeByte(bs[0], Encode(bs[1..]), bs[1..]);
      assert [bs[0]] + bs[1..] == bs;
    }
  }

  /** One encoded byte in front of decodable text decodes to that byte in front. */
  lemma DecodeByte(b: byte, t: string, rest: seq<byte>)
    requires Decode(t) == Some(rest)
    ensures Decode(EncodeByte(b) + t) == Some([b] + rest)
  {
    var s := EncodeByte(b) + t;
    var n := b as int;
    assert s[2..] == t;
    assert s[0] == DigitChar(n / 16) && s[1] == DigitChar(n % 16);
    DigitCharInjective(DigitValue(s[0]), n / 16);
    DigitCharInjective(DigitValue(s[1]), n % 16);
  }

  lemma DigitCharInjective(m: int, n: int)
    requires 0 <= m < 16 && 0 <= n < 16
    requires DigitChar(m) == DigitChar(n)
    ensures m == n
  {
  }

  /** Encodings agree exactly when the byte strings agree. */
  lemma EncodeInjective(a: seq<byte>, b: seq<byte>)
    ensures Encode(a) == Encode(b) <==> a == b
  {
    if Encode(a) == Encode(b) {
      DecodeEncode(a);
      DecodeEncode(b);
    }
  }
}

=== FILE: image.dfy ===
/** Image naming and the build decision (src/image.rs). */
module Image {
  import opened Types
  import opened Hex
  import opened Paths
  import opened Runtime
  import opened Config
  import opened Text

  /** The label used when the workspace has no usable directory name. */
  const FallbackLabel: string := "project"

  predicate IsAsciiAlphanumeric(c: char)
  {
    'a' <= c <= 'z' || 'A' <= c <= 'Z' || '0' <= c <= '9'
  }

  /** The characters an image label may contain: `[a-z0-9._-]`. */
  predicate IsLabelChar(c: char)
  {
    'a' <= c <= 'z' || '0' <= c <= '9' || c == '.' || c == '_' || c == '-'
  }

  /** Lower-casing, restricted to ASCII letters (other characters are kept). */
  function ToLowerAscii(c: char): char
  {
    if 'A' <= c <= 'Z' then (c as int + 32) as char else c
  }

  function LowerAscii(s: string): (r: string)
    ensures |r| == |s| && forall i :: 0 <= i < |s| ==> r[i] == ToLowerAscii(s[i])
  {
    if |s| == 0 then [] else [ToLowerAscii(s[0])] + LowerAscii(s[1..])
  }

  /** One character of the label: lower-cased, and replaced by `-` unless it
      is an ASCII alphanumeric, `.`, `_` or `-`. */
  function SanitiseChar(c: char): (r: char)
    ensures IsLabelChar(r)
  {
    var l := ToLowerAscii(c);
    if IsAsciiAlphanumeric(l) || l == '.' || l == '_' || l == '-' then l else '-'
  }

  function Sanitise(s: string): (r: string)
    ensures |r| == |s| && forall i :: 0 <= i < |s| ==> r[i] == SanitiseChar(s[i])
  {
    if |s| == 0 then [] else [SanitiseChar(s[0])] + Sanitise(s[1..])
  }

  /** `r` sits in `s` at `i` with only dashes around it. */
  predicate DashPadded(s: string, i: nat, r: string)
  {
    && i + |r| <= |s| && r == s[i..i + |r|]
    && (forall k :: 0 <= k < i ==> s[k] == '-')
    && (forall k :: i + |r| <= k < |s| ==> s[k] == '-')
  }

  /** `trim_matches('-')`: the longest infix with no dash at either end that
      is obtained by removing only dashes. */
  function TrimDashes(s: string): (r: string)
    ensures DashPadded(s, |s| - |TrimStartMatches(s, '-')|, r)
    ensures |r| > 0 ==> r[0] != '-' && r[|r| - 1] != '-'
  {
    var t := TrimStartMatches(s, '-');
    var r := TrimEndMatches(t, '-');
    PrefixOfSuffix(s, t, r);
    r
  }

  /** A prefix `r` of a suffix `t` of `s`, where `s` has only dashes before `t`
      and `t` only dashes after `r`, is an infix of `s` with only dashes
      around it. */
  lemma PrefixOfSuffix(s: string, t: string, r: string)
    requires |t| <= |s| && t == s[|s| - |t|..]
    requires forall k :: 0 <= k < |s| - |t| ==> s[k] == '-'
    requires |r| <= |t| && r == t[..|r|]
    requires forall k :: |r| <= k < |t| ==> t[k] == '-'
    ensures DashPadded(s, |s| - |t|, r)
  {
    var i := |s| - |t|;
    forall k | i + |r| <= k < |s| ensures s[k] == '-' {
      assert s[k] == t[k - i];
    }
  }

  /** Trimming keeps only characters of the text. */
  lemma TrimKeepsLabelChars(s: string)
    requires forall k :: 0 <= k < |s| ==> IsLabelChar(s[k])
    ensures forall k :: 0 <= k < |TrimDashes(s)| ==> IsLabelChar(TrimDashes(s)[k])
  {
    var r := TrimDashes(s);
    var i := |s| - |TrimStartMatches(s, '-')|;
    assert forall k :: 0 <= k < |r| ==> r[k] == s[i + k];
  }

  /** The directory label of `image_name`. */
  function Label(fileName: Option<string>): (r: string)
    ensures |r| > 0 && r[0] != '-' && r[|r| - 1] != '-'
    ensures forall i :: 0 <= i < |r| ==> IsLabelChar(r[i])
  {
    var raw := if fileName.Some? then fileName.value else FallbackLabel;
    var trimmed := TrimDashes(Sanitise(raw));
    TrimKeepsLabelChars(Sanitise(raw));
    if |trimmed| == 0 then FallbackLabel else trimmed
  }

  /** `image_name`: the label of the workspace's last component, a dash, and the
      hex of the first three bytes of `d`, the SHA-256 of the workspace path.
      The text after the last dash is exactly those six hex digits, whatever
      dashes the label contains. */
  function ImageName(workspace: string, d: Digest): (r: string)
    ensures |r| == |Label(FileName(workspace))| + 7
    ensures Label(FileName(workspace)) + "-" <= r
    ensures IsLowerHex(r[|r| - 6..])
    ensures LastIndexOf(r, '-') == Some(|r| - 7)
    ensures Hex.Decode(r[|r| - 6..]) == Some(d[..3])
  {
    DecodeEncode(d[..3]);
    Tagged(Label(FileName(workspace)), Hex.Encode(d[..3]))
  }

  /** A label, a dash and six hex digits. */
  function Tagged(tag: string, short: string): (r: string)
    requires |short| == 6 && IsLowerHex(short)
    ensures |r| == |tag| + 7
    ensures tag + "-" <= r
    ensures r[|r| - 6..] == short
    ensures LastIndexOf(r, '-') == Some(|tag|)
  {
    var r := tag + "-" + short;
    assert r[|r| - 6..] == short;
    assert r[..|tag| + 1] == tag + "-";
    DashBeforeHex(tag, short);
    r
  }

  /** A dash followed by hex digits is the last dash. */
  lemma DashBeforeHex(tag: string, short: string)
    requires IsLowerHex(short)
    ensures LastIndexOf(tag + "-" + short, '-') == Some(|tag|)
  {
    assert '-' !in short by {
      assert forall i :: 0 <= i < |short| ==> IsLowerHexDigit(short[i]);
    }
    assert tag + "-" + short == tag + ['-'] + short;
    LastIndexAfter(tag, short, '-');
  }

  /** A directory name made only of ASCII alphanumerics, `.`, `_` and `-`,
      neither starting nor ending with `-`, is used lower-cased as it is. */
  lemma {:induction false} PlainNameIsLowercased(name: string)
    requires |name| > 0 && name[0] != '-' && name[|name| - 1] != '-'
    requires forall i :: 0 <= i < |name| ==>
      IsAsciiAlphanumeric(name[i]) || name[i] == '.' || name[i] == '_' || name[i] == '-'
    ensures Label(Some(name)) == LowerAscii(name)
  {
    var s := Sanitise(name);
    assert s == LowerAscii(name);
    assert s[0] != '-' && s[|s| - 1] != '-';
    TrimOfUndashed(s);
  }

  lemma TrimOfUndashed(s: string)
    requires |s| > 0 && s[0] != '-' && s[|s| - 1] != '-'
    ensures TrimDashes(s) == s
  {
  }

  /** A workspace without a usable file name is labelled `project`. */
  lemma LabelWithoutFileName()
    ensures Label(None) == FallbackLabel
  {
    FallbackIsPlain();
    TrimOfUndashed(FallbackLabel);
  }

  /** `project` is already a label: sanitising and trimming keep it. */
  lemma FallbackIsPlain()
    ensures Sanitise(FallbackLabel) == FallbackLabel
    ensures FallbackLabel[0] != '-' && FallbackLabel[|FallbackLabel| - 1] != '-'
  {
    var s := Sanitise(FallbackLabel);
    forall i | 0 <= i < |s| ensures s[i] == FallbackLabel[i] {
      assert 'a' <= FallbackLabel[i] <= 'z';
    }
  }

  /** A name that sanitises to dashes only (for example `!!!`) falls back to `project`. */
  lemma {:induction false} AllDashesFallBack(name: string)
    requires forall i :: 0 <= i < |name| ==> SanitiseChar(name[i]) == '-'
    ensures Label(Some(name)) == FallbackLabel
  {
    var s := Sanitise(name);
    assert forall k :: 0 <= k < |s| ==> s[k] == '-';
  }

  /** The image name of a workspace directory starts with the directory's
      label, whatever the parent directory is. */
  lemma ImageNameUsesLastComponent(parent: string, dir: string, d: Digest)
    requires IsFileName(dir)
    ensures Label(Some(dir)) + "-" <= ImageName(Join(parent, dir), d)
  {
    FileNameOfJoin(parent, dir);
  }

  // ---------------------------------------------------------------- building

  /** `needs_build`: a forced build is needed without asking the runtime;
      otherwise a build is needed exactly when `podman image exists` fails. */
  function NeedsBuild(force: bool, imageExists: Exit): (r: Result<bool>)
    ensures force ==> r == Success(true)
    ensures !force ==> (r.Failure? <==> imageExists.NotRun?)
    ensures !force && imageExists.Exited? ==> r == Success(!imageExists.success)
  {
    if force then Success(true)
    else match imageExists
      case NotRun => Failure(ImageQueryFailed)
      case Exited(exists_) => Success(!exists_)
  }

  /** The `podman build` invocation of `build_image`. */
  function BuildStep(cfg: AppConfig, dockerfile: string, image: string): Step
  {
    Build(image, dockerfile, cfg.configDir)
  }

  /** `ensure_image`: builds exactly when a build is needed; a build that cannot
      be run or fails is an error, and so is a failed image query. */
  function EnsureImage(cfg: AppConfig, dockerfile: string, image: string, force: bool,
                       imageExists: Exit, answers: Answers): (t: Trace)
    ensures BuildStep(cfg, dockerfile, image) in t.steps <==> NeedsBuild(force, imageExists) == Success(true)
    ensures |t.steps| <= 1
    ensures NeedsBuild(force, imageExists).Failure? ==> t == Trace([], Failure(ImageQueryFailed))
    ensures t.result.Success? <==>
      (NeedsBuild(force, imageExists) == Success(false)
       || (NeedsBuild(force, imageExists) == Success(true)
           && Succeeded(answers(BuildStep(cfg, dockerfile, image)))))
  {
    match NeedsBuild(force, imageExists)
    case Failure(e) => Trace([], Failure(e))
    case Success(false) => Done
    case Success(true) =>
      var build := BuildStep(cfg, dockerfile, image);
      match answers(build)
      case NotRun => Trace([build], Failure(BuildNotRun))
      case Exited(ok) => Trace([build], if ok then Success(()) else Failure(BuildFailed))
  }

  /** A forced `ensure_image` builds whatever the runtime would have answered. */
  lemma ForcedBuildIgnoresQuery(cfg: AppConfig, dockerfile: string, image: string,
                                q1: Exit, q2: Exit, answers: Answers)
    ensures EnsureImage(cfg, dockerfile, image, true, q1, answers)
         == EnsureImage(cfg, dockerfile, image, true, q2, answers)
    ensures EnsureImage(cfg, dockerfile, image, true, q1, answers).steps
         == [BuildStep(cfg, dockerfile, image)]
  {
  }
}

=== FILE: json.dfy ===
/** JSON values as `serde_json::Value` holds them. Objects are maps because the
    default `serde_json::Map` keeps one value per key. Parsing and printing are
    not modelled: values enter and leave the model already parsed. */
module Json {
  import opened Types

  datatype Json =
    | JNull
    | JBool(b: bool)
    | JNumber(literal: string)
    | JString(s: string)
    | JArray(items: seq<Json>)
    | JObject(members: map<string, Json>)

  /** One step of navigation into a value: an object key or an array index. */
  datatype Selector = Key(name: string) | Index(i: nat)

  /** The value found by following `path`, if every step exists. */
  function Lookup(v: Json, path: seq<Selector>): Option<Json>
    decreases |path|
  {
    if |path| == 0 then Some(v)
    else match path[0]
      case Key(k) =>
        if v.JObject? && k in v.members then Lookup(v.members[k], path[1..]) else None
      case Index(i) =>
        if v.JArray? && i < |v.items| then Lookup(v.items[i], path[1..]) else None
  }

  /** `value.get(key)` on an object. */
  function Member(v: Json, key: string): Option<Json>
  {
    if v.JObject? && key in v.members then Some(v.members[key]) else None
  }
}

=== FILE: notify.dfy ===
/** Desktop notifications on the host (src/server/notify.rs): which backend is
    used, the AppleScript command handed to `osascript`, and the arguments of
    `notify-send`. Whether a program is installed is the exit status of
    `which <program>`, a parameter. */
module Notify {
  import opened Types
  import opened Text
  import opened Runtime

  /** `NotifyBackend`. */
  datatype Backend = OsaScript | NotifySend | NoBackend

  /** `detect_backend`: `osascript` if `which osascript` succeeds, otherwise
      `notify-send` if `which notify-send` succeeds, otherwise none. A `which`
      that cannot be run counts as "not installed". */
  function DetectBackend(whichOsascript: Exit, whichNotifySend: Exit): (b: Backend)
    ensures b == OsaScript <==> Succeeded(whichOsascript)
    ensures b == NotifySend <==> !Succeeded(whichOsascript) && Succeeded(whichNotifySend)
    ensures b == NoBackend <==> !Succeeded(whichOsascript) && !Succeeded(whichNotifySend)
  {
    if Succeeded(whichOsascript) then OsaScript
    else if Succeeded(whichNotifySend) then NotifySend
    else NoBackend
  }

  // ---------------------------------------------------------------- escaping

  /** `replace('"', "\\\"")`: every double quote gets a backslash in front;
      every other character, backslashes included, is copied. */
  function Escape(s: string): (r: string)
    ensures |r| == |s| + Count(s, '"')
    ensures Count(r, '"') == Count(s, '"')
    ensures forall i :: 0 <= i < |r| && r[i] == '"' ==> i > 0 && r[i - 1] == '\\'
    ensures |s| > 0 ==> |r| > 0 && (r[0] == s[0] || (s[0] == '"' && r[0] == '\\'))
  {
    if |s| == 0 then []
    else
      var head := if s[0] == '"' then ['\\', '"'] else [s[0]];
      var tail := Escape(s[1..]);
      CountConcat(head, tail, '"');
      head + tail
  }

  /** The inverse of `Escape`: `\"` becomes `"`, everything else is copied. */
  function Unescape(r: string): string
  {
    if |r| >= 2 && r[0] == '\\' && r[1] == '"' then ['"'] + Unescape(r[2..])
    else if |r| == 0 then []
    else [r[0]] + Unescape(r[1..])
  }

  /** Escaping loses nothing: unescaping gives the original text back. */
  lemma {:induction false} UnescapeEscape(s: string)
    ensures Unescape(Escape(s)) == s
  {
    if |s| > 0 {
      var tail := Escape(s[1..]);
      UnescapeEscape(s[1..]);
      if s[0] == '"' {
        assert Escape(s) == ['\\', '"'] + tail;
        assert (['\\', '"'] + tail)[2..] == tail;
      } else {
        assert Escape(s) == [s[0]] + tail;
        assert ([s[0]] + tail)[1..] == tail;
        // a quote in the escaped tail is never its first character
        assert |tail| > 0 ==> tail[0] != '"';
      }
    }
  }

  /** Text without double quotes passes through unchanged. */
  lemma {:induction false} EscapeQuoteFree(s: string)
    requires '"' !in s
    ensures Escape(s) == s
  {
    if |s| > 0 {
      assert '"' !in s[1..];
      EscapeQuoteFree(s[1..]);
    }
  }

  /** A quoted word is escaped at both quotes and nowhere else: `"world"`
      becomes `\"world\"`, so no quote of it is left bare. */
  lemma EscapeQuotedWord(w: string)
    requires '"' !in w
    ensures Escape("\"" + w + "\"") == "\\\"" + w + "\\\""
  {
    EscapeConcat("\"" + w, "\"");
    EscapeConcat("\"", w);
    EscapeQuoteFree(w);
    assert Escape("\"") == "\\\"";
  }

  /** Escaping distributes over concatenation. */
  lemma {:induction false} EscapeConcat(a: string, b: string)
    ensures Escape(a + b) == Escape(a) + Escape(b)
    decreases |a|
  {
    if |a| > 0 {
      var head := if a[0] == '"' then ['\\', '"'] else [a[0]];
      var ta, tb := Escape(a[1..]), Escape(b);
      assert (a + b)[0] == a[0] && (a + b)[1..] == a[1..] + b;
      EscapeConcat(a[1..], b);
      assert Escape(a + b) == head + (ta + tb);
      assert Escape(a) == head + ta;
      assert head + (ta + tb) == (head + ta) + tb;
    } else {
      assert a + b == b;
    }
  }

  // ---------------------------------------------------------------- AppleScript literals

  /** A string literal read from AppleScript source: its text, and the source
      after the closing quote. */
  datatype Literal = Literal(text: string, rest: string)

  /** The character a backslash escape stands for in an AppleScript string
      literal (`\n`, `\r` and `\t` are control characters; `\"` and `\\`
      stand for themselves). */
  function Unescaped(c: char): char
  {
    if c == 'n' then '\n' else if c == 'r' then '\r' else if c == 't' then '\t' else c
  }

  /** Reads the body of a string literal, the opening quote already consumed:
      up to the first quote that is not escaped by a backslash. */
  function ReadLiteral(s: string): (r: Option<Literal>)
    ensures r.Some? ==> |r.value.rest| < |s|
    decreases |s|
  {
    if |s| == 0 then None
    else if s[0] == '"' then Some(Literal([], s[1..]))
    else if s[0] == '\\' then
      if |s| < 2 then None
      else match ReadLiteral(s[2..])
        case None => None
        case Some(l) => Some(Literal([Unescaped(s[1])] + l.text, l.rest))
    else match ReadLiteral(s[1..])
      case None => None
      case Some(l) => Some(Literal([s[0]] + l.text, l.rest))
  }

  /** `display notification "`, which opens the message literal. */
  const MessageOpen: string := "display notification \""

  /** ` with title "`, which follows the message literal and opens the title literal. */
  const TitleOpen: string := " with title \""

  /** What `osascript` reads from `display notification "<m>" with title "<t>"`:
      the message and the title, when the command has that shape. */
  function ReadScript(script: string): (r: Option<(string, string)>)
  {
    if !(MessageOpen <= script) then None
    else match ReadLiteral(script[|MessageOpen|..])
      case None => None
      case Some(m) =>
        if !(TitleOpen <= m.rest) then None
        else match ReadLiteral(m.rest[|TitleOpen|..])
          case None => None
          case Some(t) => if t.rest == [] then Some((m.text, t.text)) else None
  }

  /** `display notification "<m>" with title "<t>"` for literal bodies `m` and `t`. */
  function Command(m: string, t: string): string
  {
    MessageOpen + ((m + "\"") + ((TitleOpen + t) + "\""))
  }

  /** The script `send_notification` builds, as written: the message literal
      first, then the title literal, each with its quotes escaped. */
  function Script(title: string, message: string): (r: string)
    ensures |r| == |MessageOpen| + |message| + |TitleOpen| + |title| + 2 + Count(message, '"') + Count(title, '"')
    ensures MessageOpen <= r && r[|r| - 1] == '"'
  {
    Command(Escape(message), Escape(title))
  }

  /** One character escaped for an AppleScript literal. */
  function EscapeChar(c: char): string
  {
    if c == '"' || c == '\\' then ['\\', c] else [c]
  }

  /** Escaping both quotes and backslashes, as AppleScript literals need. */
  function EscapeLiteral(s: string): (r: string)
    ensures '\\' !in s ==> r == Escape(s)
  {
    if |s| == 0 then [] else EscapeChar(s[0]) + EscapeLiteral(s[1..])
  }

  /** The script with both quotes and backslashes escaped. On texts without
      a backslash it is the script as written. */
  function SafeScript(title: string, message: string): (r: string)
    ensures '\\' !in title && '\\' !in message ==> r == Script(title, message)
  {
    Command(EscapeLiteral(message), EscapeLiteral(title))
  }

  /** Reading past an escape sequence. */
  lemma ReadEscapeStep(c: char, after: string, l: Literal)
    requires ReadLiteral(after) == Some(l)
    ensures ReadLiteral(['\\', c] + after) == Some(Literal([Unescaped(c)] + l.text, l.rest))
  {
    assert (['\\', c] + after)[2..] == after;
  }

  /** Reading past an ordinary character. */
  lemma ReadPlainStep(c: char, after: string, l: Literal)
    requires c != '"' && c != '\\'
    requires ReadLiteral(after) == Some(l)
    ensures ReadLiteral([c] + after) == Some(Literal([c] + l.text, l.rest))
  {
    assert ([c] + after)[1..] == after;
  }

  /** A literal escaped with `EscapeLiteral` reads back as the original text,
      and reading stops exactly at its closing quote. */
  lemma {:induction false} ReadEscapedLiteral(s: string, rest: string)
    ensures ReadLiteral(EscapeLiteral(s) + "\"" + rest) == Some(Literal(s, rest))
    decreases |s|
  {
    if |s| == 0 {
      var close := "\"" + rest;
      assert EscapeLiteral(s) + "\"" + rest == close;
      assert close[1..] == rest;
    } else {
      ReadEscapedLiteral(s[1..], rest);
      ReadEscapedCons(s, rest);
    }
  }

  /** One step of `ReadEscapedLiteral`: the first character's escape is read
      back, then the rest as before. */
  lemma ReadEscapedCons(s: string, rest: string)
    requires |s| > 0
    requires ReadLiteral(EscapeLiteral(s[1..]) + "\"" + rest) == Some(Literal(s[1..], rest))
    ensures ReadLiteral(EscapeLiteral(s) + "\"" + rest) == Some(Literal(s, rest))
  {
    var head, tail := EscapeChar(s[0]), EscapeLiteral(s[1..]);
    var after := tail + "\"" + rest;
    EscapeLiteralCons(s);
    Regroup(head, tail, "\"", rest);
    ReadEscapedChar(s[0], after, Literal(s[1..], rest));
    assert [s[0]] + s[1..] == s;
  }

  lemma EscapeLiteralCons(s: string)
    requires |s| > 0
    ensures EscapeLiteral(s) == EscapeChar(s[0]) + EscapeLiteral(s[1..])
  {
  }

  /** Reading past one escaped character gives that character back. */
  lemma ReadEscapedChar(c: char, after: string, l: Literal)
    requires ReadLiteral(after) == Some(l)
    ensures ReadLiteral(EscapeChar(c) + after) == Some(Literal([c] + l.text, l.rest))
  {
    if c == '"' || c == '\\' {
      ReadEscapeStep(c, after, l);
    } else {
      ReadPlainStep(c, after, l);
    }
  }

  /** A script built from two literal bodies reads back as what the two bodies read as. */
  lemma ReadScriptOfParts(a: string, b: string, m: string, t: string)
    requires ReadLiteral(a + "\"" + (TitleOpen + b + "\"")) == Some(Literal(m, TitleOpen + b + "\""))
    requires ReadLiteral(b + "\"" + []) == Some(Literal(t, []))
    ensures ReadScript(Command(a, b)) == Some((m, t))
  {
    var rest := TitleOpen + b + "\"";
    assert Command(a, b)[|MessageOpen|..] == a + "\"" + rest;
    assert rest[|TitleOpen|..] == b + "\"" + [];
  }

  /** With both escapes, `osascript` reads back exactly the message and the
      title, whatever characters they hold. */
  lemma SafeScriptReadsBack(title: string, message: string)
    ensures ReadScript(SafeScript(title, message)) == Some((message, title))
  {
    var a, b := EscapeLiteral(message), EscapeLiteral(title);
    ReadEscapedLiteral(message, TitleOpen + b + "\"");
    ReadEscapedLiteral(title, []);
    ReadScriptOfParts(a, b, message, title);
  }

  /** Without backslashes the two escapes agree. */
  lemma {:induction false} EscapesAgreeWithoutBackslash(s: string)
    requires '\\' !in s
    ensures Escape(s) == EscapeLiteral(s)
  {
    if |s| > 0 {
      assert '\\' !in s[1..];
      EscapesAgreeWithoutBackslash(s[1..]);
    }
  }

  /** The script as written reads back correctly when neither text holds a backslash. */
  lemma ScriptReadsBackWithoutBackslash(title: string, message: string)
    requires '\\' !in title && '\\' !in message
    ensures ReadScript(Script(title, message)) == Some((message, title))
  {
    EscapesAgreeWithoutBackslash(title);
    EscapesAgreeWithoutBackslash(message);
    SafeScriptReadsBack(title, message);
  }

  /** As written, a message that is a single backslash is misread: the
      backslash escapes the quote meant to close the message. */
  lemma ScriptMisreadsBackslash(title: string)
    ensures ReadScript(Script(title, "\\")) != Some(("\\", title))
  {
    assert Escape("\\") == "\\";
    var body := Script(title, "\\")[|MessageOpen|..];
    assert body[0] == '\\' && body[1] == '"';
  }

  // ---------------------------------------------------------------- dispatch

  /** A program run with its arguments. */
  datatype Invocation = Invocation(program: string, args: seq<string>)

  function Which(program: string): Invocation
  {
    Invocation("which", [program])
  }

  /** `send_notification`: the programs it runs, in order, given what each
      `which` reports. It never fails: the outcome of the notifying command
      is discarded, and without a backend only a diagnostic is printed. The
      AppleScript command is built by `Script`, which escapes only quotes. */
  function SendNotification(whichOsascript: Exit, whichNotifySend: Exit,
                            title: string, message: string): (r: seq<Invocation>)
    ensures |r| >= 1 && r[0] == Which("osascript")
    ensures DetectBackend(whichOsascript, whichNotifySend) == OsaScript ==>
      r == [Which("osascript"), Invocation("osascript", ["-e", Script(title, message)])]
    ensures DetectBackend(whichOsascript, whichNotifySend) == NotifySend ==>
      r == [Which("osascript"), Which("notify-send"), Invocation("notify-send", [title, message])]
    ensures DetectBackend(whichOsascript, whichNotifySend) == NoBackend ==>
      r == [Which("osascript"), Which("notify-send")]
  {
    var probes := if Succeeded(whichOsascript) then [Which("osascript")]
                  else [Which("osascript"), Which("notify-send")];
    match DetectBackend(whichOsascript, whichNotifySend)
    case OsaScript => probes + [Invocation("osascript", ["-e", Script(title, message)])]
    case NotifySend => probes + [Invocation("notify-send", [title, message])]
    case NoBackend => probes
  }

  /** `SendNotification` with the AppleScript built by `SafeScript`, which
      escapes backslashes as well as quotes; the probes and the other
      backends are unchanged. */
  function SafeSendNotification(whichOsascript: Exit, whichNotifySend: Exit,
                                title: string, message: string): (r: seq<Invocation>)
    ensures |r| >= 1 && r[0] == Which("osascript")
    ensures DetectBackend(whichOsascript, whichNotifySend) == OsaScript ==>
      r == [Which("osascript"), Invocation("osascript", ["-e", SafeScript(title, message)])]
    ensures DetectBackend(whichOsascript, whichNotifySend) == NotifySend ==>
      r == [Which("osascript"), Which("notify-send"), Invocation("notify-send", [title, message])]
    ensures DetectBackend(whichOsascript, whichNotifySend) == NoBackend ==>
      r == [Which("osascript"), Which("notify-send")]
  {
    var probes := if Succeeded(whichOsascript) then [Which("osascript")]
                  else [Which("osascript"), Which("notify-send")];
    match DetectBackend(whichOsascript, whichNotifySend)
    case OsaScript => probes + [Invocation("osascript", ["-e", SafeScript(title, message)])]
    case NotifySend => probes + [Invocation("notify-send", [title, message])]
    case NoBackend => probes
  }

  /** With the corrected escape, `osascript` is handed a script that reads
      back as exactly the message and the title. */
  lemma SafeNotificationReadsBack(whichNotifySend: Exit, title: string, message: string)
    ensures var r := SafeSendNotification(Exited(true), whichNotifySend, title, message);
      |r| == 2 && |r[1].args| == 2 && ReadScript(r[1].args[1]) == Some((message, title))
  {
    SafeScriptReadsBack(title, message);
  }

  /** As written, the notification for a message that is a single backslash
      hands `osascript` a script that does not read back as that message. */
  lemma NotificationMisreadsBackslash(whichNotifySend: Exit, title: string)
    ensures var r := SendNotification(Exited(true), whichNotifySend, title, "\\");
      |r| == 2 && |r[1].args| == 2 && ReadScript(r[1].args[1]) != Some(("\\", title))
  {
    ScriptMisreadsBackslash(title);
  }

  /** `notify-send` receives the title and the message unescaped, as two arguments. */
  lemma NotifySendGetsRawTexts(title: string, message: string)
    ensures var r := SendNotification(Exited(false), Exited(true), title, message);
      r[|r| - 1].args[0] == title && r[|r| - 1].args[1] == message
  {
  }
}

=== FILE: paths.dfy ===
/** Rust `std::path::Path` semantics on Unix, for paths given as strings:
    splitting on `/`, the normalised component list, `file_name`, `extension`
    and `join`. Only what the tool relies on is modelled. */
module Paths {
  import opened Types

  /** The pieces between `/` separators, empty pieces included. */
  function Segments(s: string): (r: seq<string>)
    ensures |r| >= 1
    ensures forall i :: 0 <= i < |r| ==> '/' !in r[i]
  {
    if |s| == 0 then [""]
    else
      var init := Segments(s[..|s| - 1]);
      var c := s[|s| - 1];
      if c == '/' then init + [""]
      else init[..|init| - 1] + [init[|init| - 1] + [c]]
  }

  /** Segments that `Path::components` keeps: empty pieces and `.` are dropped.
      (A leading `.` becomes `CurDir` in Rust, which `file_name` ignores as well.) */
  predicate Kept(segment: string)
  {
    segment != "" && segment != "."
  }

  function Normalise(segments: seq<string>): (r: seq<string>)
    ensures forall i :: 0 <= i < |r| ==> Kept(r[i]) && r[i] in segments
  {
    if |segments| == 0 then []
    else
      var init := segments[..|segments| - 1];
      var last := segments[|segments| - 1];
      var r := Normalise(init);
      if Kept(last) then r + [last] else r
  }

  function Components(path: string): (r: seq<string>)
    ensures forall i :: 0 <= i < |r| ==> Kept(r[i]) && '/' !in r[i]
  {
    Normalise(Segments(path))
  }

  /** A name that `file_name` can return: one non-empty segment other than `.` and `..`. */
  predicate IsFileName(n: string)
  {
    Kept(n) && '/' !in n && n != ".."
  }

  /** `Path::file_name`: the last component, unless there is none or it is `..`. */
  function FileName(path: string): (r: Option<string>)
    ensures r.Some? ==> IsFileName(r.value)
  {
    var cs := Components(path);
    if |cs| == 0 || cs[|cs| - 1] == ".." then None else Some(cs[|cs| - 1])
  }

  /** Index of the last occurrence of `c` in `s`. */
  function LastIndexOf(s: string, c: char): (r: Option<nat>)
    ensures r.None? <==> c !in s
    ensures r.Some? ==> r.value < |s| && s[r.value] == c && c !in s[r.value + 1..]
  {
    if |s| == 0 then None
    else if s[|s| - 1] == c then Some(|s| - 1)
    else
      var r := LastIndexOf(s[..|s| - 1], c);
      assert r.Some? ==> s[r.value + 1..] == s[..|s| - 1][r.value + 1..] + [s[|s| - 1]];
      r
  }

  /** The last `c` of `x + [c] + y` is the one after `x` when `y` has none. */
  lemma LastIndexAfter(x: string, y: string, c: char)
    requires c !in y
    ensures LastIndexOf(x + [c] + y, c) == Some(|x|)
  {
    var s := x + [c] + y;
    assert s[|x|] == c;
    assert s[|x| + 1..] == y;
  }

  /** The extension of a file name: the text after the last `.`, provided that
      `.` is not the first character (so `.env` has none). */
  function NameExtension(name: string): (r: Option<string>)
    ensures r.Some? ==> '.' !in r.value && |r.value| + 1 < |name|
    ensures '.' !in name ==> r.None?
  {
    if name == ".." then None
    else match LastIndexOf(name, '.')
      case None => None
      case Some(i) => if i == 0 then None else Some(name[i + 1..])
  }

  /** `Path::extension`. */
  function Extension(path: string): (r: Option<string>)
    ensures FileName(path).None? ==> r.None?
    ensures r.Some? ==> '.' !in r.value
  {
    match FileName(path)
    case None => None
    case Some(n) => NameExtension(n)
  }

  /** `Path::join` with a single relative name: a separator is inserted unless
      the base is empty or already ends in one. */
  function Join(base: string, name: string): (r: string)
    ensures |r| >= |name| && r[|r| - |name|..] == name
  {
    if |base| == 0 || base[|base| - 1] == '/' then base + name else base + "/" + name
  }

  /** Appending characters other than `/` extends the last segment. */
  lemma {:induction false} SegmentsAppend(a: string, n: string)
    requires '/' !in n
    ensures var sa := Segments(a);
            Segments(a + n) == sa[..|sa| - 1] + [sa[|sa| - 1] + n]
    decreases |n|
  {
    var sa := Segments(a);
    var last := sa[|sa| - 1];
    if |n| == 0 {
      assert a + n == a;
      assert last + n == last;
      assert sa[..|sa| - 1] + [last] == sa;
    } else {
      var m, c := n[..|n| - 1], n[|n| - 1];
      assert '/' !in m && c != '/' by {
        assert n == m + [c];
      }
      SegmentsAppend(a, m);
      SegmentsSnoc(a + m, c);
      var pre := sa[..|sa| - 1];
      var init := Segments(a + m);
      assert init == pre + [last + m];
      assert init[..|init| - 1] == pre;
      assert init[|init| - 1] == last + m;
      SnocAssoc(a, m, c);
      SnocAssoc(last, m, c);
      assert n == m + [c];
    }
  }

  lemma SnocAssoc(x: string, m: string, c: char)
    ensures (x + m) + [c] == x + (m + [c])
  {
  }

  /** Appending one character other than `/` extends the last segment. */
  lemma SegmentsSnoc(s: string, c: char)
    requires c != '/'
    ensures var init := Segments(s);
            Segments(s + [c]) == init[..|init| - 1] + [init[|init| - 1] + [c]]
  {
    var t := s + [c];
    assert t[..|t| - 1] == s;
  }

  /** The components of `Join(base, name)` are those of `base` followed by `name`. */
  lemma ComponentsOfJoin(base: string, name: string)
    requires IsFileName(name)
    ensures Components(Join(base, name)) == Components(base) + [name]
  {
    if |base| == 0 {
      assert Join(base, name) == name;
      NameAlone(name);
    } else if base[|base| - 1] == '/' {
      JoinAfterSlash(base, name);
    } else {
      JoinAddsSlash(base, name);
    }
  }

  /** A file name on its own is a single component, and the empty path has none. */
  lemma NameAlone(name: string)
    requires IsFileName(name)
    ensures Components(name) == [name]
    ensures Components("") == []
  {
    SegmentsOfName(name);
    assert Components(name) == Normalise([name]);
    assert [name][..0] == [];
    assert Normalise([name]) == [name];
    assert Segments("") == [""];
    assert [""][..0] == [];
    assert Normalise([""]) == [];
  }

  /** Text without `/` is a single segment. */
  lemma SegmentsOfName(name: string)
    requires '/' !in name
    ensures Segments(name) == [name]
  {
    var empty := Segments("");
    SegmentsAppend("", name);
    assert "" + name == name;
    assert empty[..0] + [empty[0] + name] == [name];
  }

  /** Joining onto a base that ends in `/` replaces its empty last segment by the name. */
  lemma JoinAfterSlash(base: string, name: string)
    requires IsFileName(name) && |base| > 0 && base[|base| - 1] == '/'
    ensures Components(base + name) == Components(base) + [name]
  {
    var pre := base[..|base| - 1];
    var sb := Segments(base);
    assert sb == Segments(pre) + [""];
    SegmentsAppend(base, name);
    assert sb[..|sb| - 1] == Segments(pre);
    assert sb[|sb| - 1] + name == name;
    var segs := Segments(pre) + [name];
    assert Segments(base + name) == segs;
    assert segs[..|segs| - 1] == Segments(pre);
  }

  /** Joining onto a base that does not end in `/` adds a segment for the name. */
  lemma JoinAddsSlash(base: string, name: string)
    requires IsFileName(name) && |base| > 0 && base[|base| - 1] != '/'
    ensures Components(base + "/" + name) == Components(base) + [name]
  {
    var sb := Segments(base);
    var withSlash := base + "/";
    assert withSlash[..|withSlash| - 1] == base;
    assert Segments(withSlash) == sb + [""];
    SegmentsAppend(withSlash, name);
    var sw := Segments(withSlash);
    assert sw[..|sw| - 1] == sb;
    assert sw[|sw| - 1] + name == name;
    assert base + "/" + name == withSlash + name;
    var segs := sb + [name];
    assert Segments(base + "/" + name) == segs;
    assert segs[..|segs| - 1] == sb;
  }

  /** `file_name` of a joined path is the joined name, whatever the base. */
  lemma FileNameOfJoin(base: string, name: string)
    requires IsFileName(name)
    ensures FileName(Join(base, name)) == Some(name)
  {
    ComponentsOfJoin(base, name);
  }

  /** `extension` is exactly the text after the last dot of the file name, and
      it is absent when the name has no dot or only a leading one. */
  lemma NameExtensionSpec(name: string)
    requires IsFileName(name)
    ensures var e := NameExtension(name);
            && (e.None? <==> ('.' !in name || (name[0] == '.' && '.' !in name[1..])))
            && (e.Some? ==> && '.' !in e.value
                            && |e.value| + 1 < |name|
                            && name == name[..|name| - |e.value| - 1] + "." + e.value)
  {
    var li := LastIndexOf(name, '.');
    if li.Some? {
      var i := li.value;
      if i == 0 {
        assert name[1..] == name[i + 1..];
      } else {
        assert name[0] != '.' || '.' in name[1..] by {
          if name[0] == '.' {
            assert name[1..][i - 1] == '.';
          }
        }
        assert name == name[..i] + "." + name[i + 1..];
      }
    }
  }
}

=== FILE: runtime.dfy ===
/** The container runtime and the file system as the tool sees them: commands
    it issues, what running a command can report, and the trace an operation
    leaves. Nothing here is executed; the world's answers are parameters. */
module Runtime {
  import opened Types
  import opened Json
  import opened Config
  import opened Hex

  /** What `Command::status()` or a file write reports: the program could not
      be run at all (an `io::Error`; for a file write, the write failed), or
      it ran and exited successfully or not. */
  datatype Exit = NotRun | Exited(success: bool)

  /** What a `podman ps` query reports through `Command::output()`: the
      program could not be run, or it printed something or nothing. */
  datatype Query = QueryNotRun | Printed(nonEmpty: bool)

  /** A side effect the tool performs, in the order it performs them. */
  datatype Step =
    | WriteText(path: Path, text: string)        // std::fs::write of a text file
    | WriteJson(path: Path, doc: Json)           // std::fs::write of pretty-printed JSON
    | RunContainer(run: RunSpec)                 // podman run ... (the argument vector is rendered from it)
    | CopyIn(source: Path, target: string)       // podman cp <source> <container>:<path>
    | Start(name: string)                        // podman start
    | Attach(name: string)                       // podman attach
    | Stop(name: string)                         // podman stop
    | Remove(name: string)                       // podman rm
    | RemoveVolume(name: string)                 // podman volume rm
    | Build(image: string, dockerfile: string, context: Path)  // podman build -t <image> -f <dockerfile> <context>

  /** What determines the `podman run` creating a workspace container: the
      workspace path, its SHA-256 (from which the container, volume and image
      names derive) and the port the notification URL points at. */
  datatype RunSpec = RunSpec(workspace: string, digest: Digest, port: nat)

  /** The steps an operation issued and what it returned. */
  datatype Trace = Trace(steps: seq<Step>, result: Result<()>)

  /** The answers of the world to each step. */
  type Answers = Step -> Exit

  /** An exit status counts as success only when the program ran and exited 0. */
  predicate Succeeded(e: Exit)
  {
    e == Exited(true)
  }

  /** Every step in `steps` actually ran: each write was performed and each
      command could be started, whatever its exit status. */
  predicate AllRan(steps: seq<Step>, answers: Answers)
  {
    forall s :: s in steps ==> !answers(s).NotRun?
  }

  /** Issue `s`; stop with `e` if it `failed`, otherwise continue with `rest`. */
  function Then(s: Step, failed: bool, e: Error, rest: Trace): Trace
  {
    if failed then Trace([s], Failure(e)) else Trace([s] + rest.steps, rest.result)
  }

  const Done: Trace := Trace([], Success(()))
}

=== FILE: runtime_config.dfy ===
/** The two runtime files generated before a container is created
    (src/container.rs): the briefing (CLAUDE.md) with the container preamble in
    front of the operator's own text, and the settings document with the
    completion hook injected into the operator's own settings. */
module RuntimeConfig {
  import opened Types
  import opened Json
  import opened Text

  /** The host name by which processes in a container reach the host. */
  const GatewayHost: string := "host.containers.internal"

  /** A `u16` port number. */
  type Port = n: nat | n < 0x1_0000

  /** The fixed container-environment preamble of the briefing. */
  const Preamble: string :=
    "# Container Environment\n"
    + "You are running inside a Podman container. To reach services on the host machine,\n"
    + "use `host.containers.internal` instead of `localhost`.\n"
    + "\n"
    + "For example: `curl http://host.containers.internal:3000`\n"
    + "\n"
    + "Working directory: /app\n"

  /** The operator's CLAUDE.md as the tool finds it. */
  datatype TextFile = TextMissing | TextUnreadable | TextPresent(text: string)

  /** The operator's settings.json as the tool finds it: absent, present but
      unreadable, read but not valid JSON, or parsed. */
  datatype SettingsFile =
    | SettingsMissing
    | SettingsUnreadable
    | SettingsUnparseable
    | SettingsParsed(value: Json)

  // ---------------------------------------------------------------- briefing

  /** `generate_runtime_claude_md` without the final write: the preamble alone,
      or the preamble, a newline and the operator's text verbatim. */
  function MergeBriefing(host: TextFile): (r: Result<string>)
    ensures host.TextUnreadable? <==> r.Failure?
    ensures r.Failure? ==> r.error == ReadClaudeMdFailed
    ensures host.TextMissing? ==> r == Success(Preamble)
    ensures host.TextPresent? ==>
      && Preamble + "\n" <= r.value
      && r.value[|Preamble| + 1..] == host.text
  {
    match host
    case TextMissing => Success(Preamble)
    case TextUnreadable => Failure(ReadClaudeMdFailed)
    case TextPresent(existing) => Success(Preamble + "\n" + existing)
  }

  /** The operator's part of a generated briefing, if it has one. */
  function OperatorText(briefing: string): Option<string>
  {
    if Preamble + "\n" <= briefing then Some(briefing[|Preamble| + 1..]) else None
  }

  /** The operator's text can be recovered from every generated briefing, and a
      briefing without one is exactly the preamble; so no operator text is lost
      or invented by the merge. */
  lemma BriefingRecoversOperatorText(host: TextFile)
    requires !host.TextUnreadable?
    ensures OperatorText(MergeBriefing(host).value)
         == (if host.TextPresent? then Some(host.text) else None)
  {
    if host.TextMissing? {
      assert |Preamble + "\n"| > |Preamble|;
    }
  }

  // ---------------------------------------------------------------- settings

  /** The shell command the in-container Stop hook runs. */
  function HookCommand(port: Port): (r: string)
    ensures r == "curl -sf -X POST http://host.containers.internal:" + Decimal(port) + "/notify || true"
  {
    HookPrefixSpelledOut();
    HookPrefix + Decimal(port) + HookSuffix
  }

  /** The prefix with the gateway host filled in. */
  lemma HookPrefixSpelledOut()
    ensures HookPrefix == "curl -sf -X POST http://host.containers.internal:"
  {
  }

  const HookPrefix: string := "curl -sf -X POST http://" + GatewayHost + ":"
  const HookSuffix: string := "/notify || true"

  /** The value injected as `hooks.Stop`. */
  function StopHook(port: Port): (r: Json)
    ensures r.JArray? && |r.items| == 1 && r.items[0].JObject?
    ensures r.items[0].members.Keys == {"matcher", "hooks"}
    ensures var hs := r.items[0].members["hooks"];
      && hs.JArray? && |hs.items| == 1 && hs.items[0].JObject?
      && hs.items[0].members.Keys == {"type", "command"}
  {
    JArray([JObject(map[
      "matcher" := JString("*"),
      "hooks" := JArray([JObject(map[
        "type" := JString("command"),
        "command" := JString(HookCommand(port))])])])])
  }

  /** The document the merge starts from: the parsed settings, or `{}` when the
      file is missing or does not parse. */
  function Base(host: SettingsFile): Json
  {
    if host.SettingsParsed? then host.value else JObject(map[])
  }

  /** The `hooks` members of an object before the merge (none if absent). */
  function ExistingHooks(doc: Json): map<string, Json>
    requires doc.JObject?
  {
    if "hooks" in doc.members && doc.members["hooks"].JObject? then doc.members["hooks"].members
    else map[]
  }

  /** `after` is `before` with `hooks.Stop` set to `stop` and nothing else changed. */
  ghost predicate InjectedInto(before: Json, after: Json, stop: Json)
  {
    && before.JObject? && after.JObject?
    && after.members.Keys == before.members.Keys + {"hooks"}
    && (forall k :: k in before.members && k != "hooks" ==> after.members[k] == before.members[k])
    && after.members["hooks"].JObject?
    && var hooks := after.members["hooks"].members;
       && hooks.Keys == ExistingHooks(before).Keys + {"Stop"}
       && (forall k :: k in ExistingHooks(before) && k != "Stop" ==> hooks[k] == ExistingHooks(before)[k])
       && hooks["Stop"] == stop
  }

  /** `generate_runtime_settings` without the final write. It fails only when the
      file cannot be read, when the root is not an object, or when an existing
      `hooks` member is not an object (`MergeSettingsInjects` states what it
      produces otherwise). */
  function MergeSettings(host: SettingsFile, port: Port): (r: Result<Json>)
    ensures host.SettingsUnreadable? ==> r == Failure(ReadSettingsFailed)
    ensures !host.SettingsUnreadable? ==>
      && (r == Failure(SettingsNotObject) <==> !Base(host).JObject?)
      && (r == Failure(HooksNotObject) <==>
            Base(host).JObject? && "hooks" in Base(host).members
            && !Base(host).members["hooks"].JObject?)
    ensures r.Success? <==>
      && !host.SettingsUnreadable?
      && Base(host).JObject?
      && ("hooks" !in Base(host).members || Base(host).members["hooks"].JObject?)
  {
    if host.SettingsUnreadable? then Failure(ReadSettingsFailed)
    else
      var settings := Base(host);
      if !settings.JObject? then Failure(SettingsNotObject)
      else
        var obj := settings.members;
        var hooks := if "hooks" in obj then obj["hooks"] else JObject(map[]);
        if !hooks.JObject? then Failure(HooksNotObject)
        else Success(JObject(obj["hooks" := JObject(hooks.members["Stop" := StopHook(port)])]))
  }

  /** A successful merge injects the Stop hook into the operator's settings
      and changes nothing else: every other member, and every other hook, is kept. */
  lemma MergeSettingsInjects(host: SettingsFile, port: Port)
    requires MergeSettings(host, port).Success?
    ensures InjectedInto(Base(host), MergeSettings(host, port).value, StopHook(port))
  {
  }

  /** The hook has the shape the agent expects: one matcher-`*` entry holding
      one `command` hook whose command is the notify call. */
  lemma StopHookShape(port: Port)
    ensures var h := StopHook(port);
      && h.JArray? && |h.items| == 1
      && Lookup(h, [Index(0), Key("matcher")]) == Some(JString("*"))
      && Lookup(h, [Index(0), Key("hooks")]).Some?
      && Lookup(h, [Index(0), Key("hooks")]).value.JArray?
      && |Lookup(h, [Index(0), Key("hooks")]).value.items| == 1
      && Lookup(h, [Index(0), Key("hooks"), Index(0), Key("type")]) == Some(JString("command"))
      && Lookup(h, [Index(0), Key("hooks"), Index(0), Key("command")]) == Some(JString(HookCommand(port)))
  {
    var h := StopHook(port);
    var e := h.items[0];
    assert Lookup(h, [Index(0), Key("matcher")]) == Lookup(e, [Key("matcher")]);
    assert Lookup(h, [Index(0), Key("hooks")]) == Lookup(e, [Key("hooks")]);
    var hs := e.members["hooks"];
    var inner := hs.items[0];
    assert Lookup(h, [Index(0), Key("hooks"), Index(0), Key("type")])
        == Lookup(hs, [Index(0), Key("type")]) == Lookup(inner, [Key("type")]);
    assert Lookup(h, [Index(0), Key("hooks"), Index(0), Key("command")])
        == Lookup(hs, [Index(0), Key("command")]) == Lookup(inner, [Key("command")]);
  }

  /** In every successfully merged document, `hooks.Stop[0].hooks[0].command`
      is the notify call for the given port. */
  lemma MergedHookCommand(host: SettingsFile, port: Port)
    requires MergeSettings(host, port).Success?
    ensures Lookup(MergeSettings(host, port).value,
                   [Key("hooks"), Key("Stop"), Index(0), Key("hooks"), Index(0), Key("command")])
         == Some(JString(HookCommand(port)))
  {
    var doc := MergeSettings(host, port).value;
    var path := [Key("hooks"), Key("Stop"), Index(0), Key("hooks"), Index(0), Key("command")];
    StopHookShape(port);
    assert Lookup(doc, path) == Lookup(doc.members["hooks"], path[1..]);
    assert Lookup(doc.members["hooks"], path[1..]) == Lookup(StopHook(port), path[2..]);
    assert path[2..] == [Index(0), Key("hooks"), Index(0), Key("command")];
  }

  /** A missing and an unparseable settings file both behave as `{}`: the
      result is a document holding only the hook. */
  lemma MissingSettingsGiveOnlyTheHook(port: Port)
    ensures MergeSettings(SettingsMissing, port)
         == MergeSettings(SettingsUnparseable, port)
         == MergeSettings(SettingsParsed(JObject(map[])), port)
         == Success(JObject(map["hooks" := JObject(map["Stop" := StopHook(port)])]))
  {
  }

  /** Merging a merged document again with the same port changes nothing. */
  lemma MergeIdempotent(host: SettingsFile, port: Port)
    requires MergeSettings(host, port).Success?
    ensures MergeSettings(SettingsParsed(MergeSettings(host, port).value), port)
         == MergeSettings(host, port)
  {
    var doc := MergeSettings(host, port).value;
    var hooks := doc.members["hooks"].members;
    assert hooks["Stop" := StopHook(port)] == hooks;
    assert doc.members["hooks" := JObject(hooks)] == doc.members;
  }

  /** The hook command names the gateway host and the port. */
  lemma HookCommandNamesGatewayAndPort(port: Port)
    ensures Contains(HookCommand(port), GatewayHost)
    ensures Contains(HookCommand(port), Decimal(port))
  {
    var scheme := "curl -sf -X POST http://";
    var d := Decimal(port);
    assert OccursAt(GatewayHost, GatewayHost, 0);
    ContainsInConcat(scheme, GatewayHost, ":" + d + HookSuffix, GatewayHost);
    assert HookCommand(port) == scheme + GatewayHost + (":" + d + HookSuffix);
    assert OccursAt(d, d, 0);
    ContainsInConcat(HookPrefix, d, HookSuffix, d);
  }

  /** Different ports give different hook commands: the command determines the port. */
  lemma HookCommandDeterminesPort(p: Port, q: Port)
    requires HookCommand(p) == HookCommand(q)
    ensures p == q
  {
    var c := HookCommand(p);
    assert |Decimal(p)| == |Decimal(q)|;
    assert Decimal(p) == c[|HookPrefix|..|c| - |HookSuffix|] == Decimal(q);
    assert DigitsValue(Decimal(p)) == DigitsValue(Decimal(q));
  }
}

=== FILE: text.dfy ===
/** String helpers shared by several modules: substring search, character
    counting and decimal numerals. Strings are sequences of Unicode scalars. */
module Text {

  /** `pat` occurs in `s` starting at index `i`. */
  predicate OccursAt(s: string, pat: string, i: int)
  {
    0 <= i && i + |pat| <= |s| && s[i..i + |pat|] == pat
  }

  /** Substring test, the `str::contains` of the source, by a left-to-right scan. */
  function Contains(s: string, pat: string): (r: bool)
    ensures r <==> exists i :: OccursAt(s, pat, i)
    decreases |s|
  {
    if |s| < |pat| then
      assert forall i :: !OccursAt(s, pat, i);
      false
    else if s[..|pat|] == pat then
      assert OccursAt(s, pat, 0);
      true
    else
      var rest := Contains(s[1..], pat);
      assert forall i :: OccursAt(s[1..], pat, i) <==> OccursAt(s, pat, i + 1) by {
        forall i ensures OccursAt(s[1..], pat, i) <==> OccursAt(s, pat, i + 1) {
          if 0 <= i && i + 1 + |pat| <= |s| {
            assert s[1..][i..i + |pat|] == s[i + 1..i + 1 + |pat|];
          }
        }
      }
      assert !OccursAt(s, pat, 0);
      assert (exists i :: OccursAt(s, pat, i)) ==> exists i :: OccursAt(s[1..], pat, i) by {
        if exists i :: OccursAt(s, pat, i) {
          var i :| OccursAt(s, pat, i);
          assert i >= 1;
          assert OccursAt(s[1..], pat, i - 1);
        }
      }
      rest
  }

  /** Any occurrence found at a known index makes `Contains` true. */
  lemma ContainsAt(s: string, pat: string, i: int)
    requires OccursAt(s, pat, i)
    ensures Contains(s, pat)
  {
  }

  /** Regrouping a four-piece concatenation behind its first piece. */
  lemma Regroup(f: string, a: string, b: string, c: string)
    ensures f + a + b + c == f + (a + b + c)
  {
  }

  /** The last three pieces of a four-piece concatenation occur after the first. */
  lemma OccursAfterFront(f: string, a: string, b: string, c: string)
    ensures OccursAt(f + a + b + c, a + b + c, |f|)
  {
    var s := f + a + b + c;
    assert s == f + (a + b + c);
  }

  /** An occurrence in a part of a concatenation is an occurrence in the whole. */
  lemma {:induction false} ContainsInConcat(a: string, b: string, c: string, pat: string)
    requires Contains(b, pat)
    ensures Contains(a + b + c, pat)
  {
    var i :| OccursAt(b, pat, i);
    assert (a + b + c)[|a| + i..|a| + i + |pat|] == b[i..i + |pat|];
    assert OccursAt(a + b + c, pat, |a| + i);
  }

  /** Number of occurrences of the character `c` in `s`. */
  function Count(s: string, c: char): nat
  {
    if |s| == 0 then 0 else (if s[0] == c then 1 else 0) + Count(s[1..], c)
  }

  /** Counting distributes over concatenation. */
  lemma {:induction false} CountConcat(a: string, b: string, c: char)
    ensures Count(a + b, c) == Count(a, c) + Count(b, c)
    decreases |a|
  {
    if |a| > 0 {
      assert (a + b)[1..] == a[1..] + b;
      CountConcat(a[1..], b, c);
    } else {
      assert a + b == b;
    }
  }

  /** A character absent from `s` is counted zero times. */
  lemma {:induction false} CountAbsent(s: string, c: char)
    requires c !in s
    ensures Count(s, c) == 0
  {
    if |s| > 0 {
      assert c !in s[1..];
      CountAbsent(s[1..], c);
    }
  }

  predicate IsDigit(c: char)
  {
    '0' <= c <= '9'
  }

  predicate AllDigits(s: string)
  {
    forall i :: 0 <= i < |s| ==> IsDigit(s[i])
  }

  /** The character for a decimal digit value. */
  function DigitChar(d: nat): (c: char)
    requires d < 10
    ensures IsDigit(c) && c as int - '0' as int == d
  {
    ('0' as int + d) as char
  }

  /** The value a run of decimal digits denotes (most significant first). */
  function DigitsValue(s: string): nat
    requires AllDigits(s)
  {
    if |s| == 0 then 0
    else 10 * DigitsValue(s[..|s| - 1]) + (s[|s| - 1] as int - '0' as int)
  }

  /** Decimal rendering of a natural number, as Rust's `{}` formats an unsigned integer. */
  function Decimal(n: nat): (r: string)
    ensures |r| > 0 && AllDigits(r)
    ensures DigitsValue(r) == n
    ensures r[0] == '0' ==> r == "0"
    decreases n
  {
    if n < 10 then [DigitChar(n)]
    else
      var prefix := Decimal(n / 10);
      var r := prefix + [DigitChar(n % 10)];
      assert r[..|r| - 1] == prefix;
      r
  }

  /** Decimal rendering is injective: distinct numbers print differently. */
  lemma DecimalInjective(m: nat, n: nat)
    ensures Decimal(m) == Decimal(n) <==> m == n
  {
  }

  // ---------------------------------------------------------------- trimming

  /** `str::trim_start_matches(c)`: every leading `c` is removed, nothing else. */
  function TrimStartMatches(s: string, c: char): (r: string)
    ensures |r| <= |s| && r == s[|s| - |r|..]
    ensures forall i :: 0 <= i < |s| - |r| ==> s[i] == c
    ensures |r| > 0 ==> r[0] != c
  {
    if |s| > 0 && s[0] == c then TrimStartMatches(s[1..], c) else s
  }

  /** `str::trim_end_matches(c)`: every trailing `c` is removed, nothing else. */
  function TrimEndMatches(s: string, c: char): (r: string)
    ensures |r| <= |s| && r == s[..|r|]
    ensures forall i :: |r| <= i < |s| ==> s[i] == c
    ensures |r| > 0 ==> r[|r| - 1] != c
  {
    if |s| > 0 && s[|s| - 1] == c then TrimEndMatches(s[..|s| - 1], c) else s
  }

  /** `n` copies of `c`. */
  function Repeat(c: char, n: nat): (r: string)
    ensures |r| == n && forall i :: 0 <= i < n ==> r[i] == c
  {
    if n == 0 then [] else [c] + Repeat(c, n - 1)
  }

  /** Any number of leading `c`s is stripped, and what follows them is kept
      whole. */
  lemma {:induction false} TrimStartOfRepeat(c: char, n: nat, rest: string)
    requires |rest| == 0 || rest[0] != c
    ensures TrimStartMatches(Repeat(c, n) + rest, c) == rest
    decreases n
  {
    if n > 0 {
      calc {
        TrimStartMatches(Repeat(c, n) + rest, c);
        { RepeatCons(c, n, rest); }
        TrimStartMatches([c] + (Repeat(c, n - 1) + rest), c);
        { TrimStartCons(c, Repeat(c, n - 1) + rest); }
        TrimStartMatches(Repeat(c, n - 1) + rest, c);
        { TrimStartOfRepeat(c, n - 1, rest); }
        rest;
      }
    } else {
      assert Repeat(c, n) + rest == rest;
    }
  }

  lemma RepeatCons(c: char, n: nat, rest: string)
    requires n > 0
    ensures Repeat(c, n) + rest == [c] + (Repeat(c, n - 1) + rest)
  {
  }

  /** One leading `c` more makes no difference. */
  lemma TrimStartCons(c: char, t: string)
    ensures TrimStartMatches([c] + t, c) == TrimStartMatches(t, c)
  {
    assert ([c] + t)[1..] == t;
  }
}

=== FILE: types.dfy ===
/** Shared vocabulary: optional values, results, and the error conditions the tool reports. */
module Types {

  /** A value that may be absent. */
  datatype Option<+T> = None | Some(value: T)

  /** The outcome of an operation that can fail with one of the tool's errors. */
  datatype Result<+T> = Success(value: T) | Failure(error: Error)

  /** Every error the modelled operations can return, one per `bail!`/`context` site. */
  datatype Error =
    | NoHomeDirectory            // dirs::home_dir() gave nothing
    | ContainerQueryFailed       // `podman ps -a` could not be run
    | RunningQueryFailed         // `podman ps` could not be run
    | ReadClaudeMdFailed         // the operator's CLAUDE.md exists but cannot be read
    | WriteClaudeMdFailed
    | ReadSettingsFailed         // the operator's settings.json exists but cannot be read
    | SettingsNotObject          // parsed settings root is not a JSON object
    | HooksNotObject             // settings `hooks` member is not a JSON object
    | WriteSettingsFailed
    | CreateFailed               // `podman run` could not be run or exited unsuccessfully
    | CopyClaudeMdFailed         // `podman cp` of CLAUDE.md could not be run
    | CopySettingsFailed         // `podman cp` of settings.json could not be run
    | StartFailed
    | AttachFailed
    | StopFailed                 // `podman stop` could not be run
    | RemoveFailed               // `podman rm` could not be run
    | ImageQueryFailed           // `podman image exists` could not be run
    | BuildNotRun                // `podman build` could not be run
    | BuildFailed                // `podman build` exited unsuccessfully
    | PromptFailed               // the confirmation prompt could not be shown
    | FetchFailed                // the release query failed (network, status or body)
    | MissingTagName             // the release document has no string `tag_name`
}

=== FILE: update.dfy ===
/** The update check of src/update.rs: normalising the latest release tag,
    parsing `major.minor.patch` versions into `u64` triples, and deciding
    whether the latest release is newer than the running one. The HTTP query
    is a parameter: its outcome enters as an already-parsed document. */
module Update {
  import opened Types
  import opened Text
  import opened Json

  /** `u64::MAX + 1`. */
  const U64Limit: nat := 0x1_0000_0000_0000_0000

  // ---------------------------------------------------------------- tags

  /** `fetch_latest_version` after the request: the release document's
      `tag_name`, which must be a string, without its leading `v`s. A failed
      request or an unreadable body arrives as `Failure(FetchFailed)`. */
  function LatestVersion(response: Result<Json>): (r: Result<string>)
    ensures response.Failure? ==> r == Failure(response.error)
    ensures response.Success? ==>
      (r.Success? <==> Member(response.value, "tag_name").Some? && Member(response.value, "tag_name").value.JString?)
    ensures response.Success? && r.Failure? ==> r.error == MissingTagName
    ensures r.Success? ==> response.Success? && (|r.value| == 0 || r.value[0] != 'v')
    ensures r.Success? ==>
      var tag := Member(response.value, "tag_name").value.s;
      |r.value| <= |tag| && tag == Repeat('v', |tag| - |r.value|) + r.value
  {
    match response
    case Failure(e) => Failure(e)
    case Success(doc) =>
      match Member(doc, "tag_name")
      case Some(JString(tag)) => Success(TrimStartMatches(tag, 'v'))
      case _ => Failure(MissingTagName)
  }

  // ---------------------------------------------------------------- u64 fields

  /** `str::parse::<u64>`: an optional `+` (not on its own), then one or more
      decimal digits whose value fits in 64 bits. Leading zeros are allowed;
      a `-` sign, spaces and any other character are not. */
  function ParseU64(s: string): (r: Option<nat>)
    ensures r.Some? ==> r.value < U64Limit
    ensures r.Some? ==> |s| > 0 && (IsDigit(s[0]) || (s[0] == '+' && |s| > 1))
                        && forall i :: 0 < i < |s| ==> IsDigit(s[i])
  {
    if |s| == 0 then None
    else
      var digits := if s[0] == '+' && |s| > 1 then s[1..] else s;
      if AllDigits(digits) && DigitsValue(digits) < U64Limit then Some(DigitsValue(digits)) else None
  }

  /** Conversely, every non-empty run of digits with a value below 2^64 parses
      to that value, with or without a leading `+`. */
  lemma ParseU64Accepts(d: string)
    requires |d| > 0 && AllDigits(d) && DigitsValue(d) < U64Limit
    ensures ParseU64(d) == Some(DigitsValue(d))
    ensures ParseU64("+" + d) == Some(DigitsValue(d))
  {
    assert IsDigit(d[0]);
    assert ("+" + d)[1..] == d;
  }

  /** Digit runs at or above 2^64 do not parse. */
  lemma ParseU64RejectsOverflow(d: string)
    requires AllDigits(d) && DigitsValue(d) >= U64Limit
    ensures ParseU64(d) == None && ParseU64("+" + d) == None
  {
    assert ("+" + d)[1..] == d;
  }

  /** Decimal rendering and parsing are inverse on `u64` values. */
  lemma ParseU64OfDecimal(n: nat)
    requires n < U64Limit
    ensures ParseU64(Decimal(n)) == Some(n)
  {
    ParseU64Accepts(Decimal(n));
  }

  /** A leading zero does not change the value. */
  lemma {:induction false} LeadingZeroIgnored(d: string)
    requires |d| > 0 && AllDigits(d)
    ensures AllDigits("0" + d) && DigitsValue("0" + d) == DigitsValue(d)
    ensures ParseU64("0" + d) == ParseU64(d)
    decreases |d|
  {
    var z := "0" + d;
    assert AllDigits(z) by {
      assert forall i :: 0 < i < |z| ==> z[i] == d[i - 1];
    }
    if |d| > 1 {
      var p := d[..|d| - 1];
      assert AllDigits(p) by {
        assert forall i :: 0 <= i < |p| ==> p[i] == d[i];
      }
      LeadingZeroIgnored(p);
      assert z[..|z| - 1] == "0" + p;
    } else {
      assert z[..|z| - 1] == "0";
    }
  }

  // ---------------------------------------------------------------- splitting

  /** Index of the first occurrence of `c` in `s`. */
  function IndexOf(s: string, c: char): (r: Option<nat>)
    ensures r.None? <==> c !in s
    ensures r.Some? ==> r.value < |s| && s[r.value] == c && c !in s[..r.value]
  {
    if |s| == 0 then None
    else if s[0] == c then Some(0)
    else
      var r := IndexOf(s[1..], c);
      if r.None? then None
      else
        assert s[..r.value + 1] == [s[0]] + s[1..][..r.value];
        Some(r.value + 1)
  }

  /** The first occurrence of `c` in `x + [c] + y` is the one after `x` when `x` has none. */
  lemma IndexOfFirst(x: string, y: string, c: char)
    requires c !in x
    ensures IndexOf(x + [c] + y, c) == Some(|x|)
  {
    var s := x + [c] + y;
    assert s[|x|] == c;
    assert s[..|x|] == x;
  }

  /** The parts joined back with dots. */
  function JoinDots(parts: seq<string>): string
  {
    if |parts| == 0 then ""
    else if |parts| == 1 then parts[0]
    else parts[0] + "." + JoinDots(parts[1..])
  }

  /** Joining `n` parts puts at least `n - 1` dots in the text. */
  lemma {:induction false} JoinDotsCount(parts: seq<string>)
    ensures Count(JoinDots(parts), '.') >= |parts| - 1
  {
    if |parts| > 1 {
      var tail := JoinDots(parts[1..]);
      JoinDotsCount(parts[1..]);
      assert JoinDots(parts) == parts[0] + ("." + tail);
      CountConcat(parts[0], "." + tail, '.');
      CountConcat(".", tail, '.');
      assert Count(".", '.') == 1;
    }
  }

  /** `v.splitn(n, '.')`: at most `n` parts, split at the first `n - 1` dots;
      the last part keeps any further dots. */
  function SplitN(v: string, n: nat): (r: seq<string>)
    requires n >= 1
    ensures 1 <= |r| <= n
    ensures JoinDots(r) == v
    ensures forall i :: 0 <= i < |r| - 1 ==> '.' !in r[i]
    ensures |r| < n ==> '.' !in r[|r| - 1]
    decreases n
  {
    if n == 1 then [v]
    else match IndexOf(v, '.')
      case None =>
        assert '.' !in v;
        [v]
      case Some(i) =>
        var rest := SplitN(v[i + 1..], n - 1);
        var r := [v[..i]] + rest;
        SplitStep(v, i, rest, r, n);
        r
  }

  /** Splitting at the first dot and putting its dot-free head in front of
      the split tail keeps the parts split. */
  lemma SplitStep(v: string, i: nat, rest: seq<string>, r: seq<string>, n: nat)
    requires i < |v| && v[i] == '.' && '.' !in v[..i] && n >= 2
    requires 1 <= |rest| <= n - 1 && JoinDots(rest) == v[i + 1..]
    requires forall k :: 0 <= k < |rest| - 1 ==> '.' !in rest[k]
    requires |rest| < n - 1 ==> '.' !in rest[|rest| - 1]
    requires r == [v[..i]] + rest
    ensures 1 <= |r| <= n
    ensures JoinDots(r) == v
    ensures forall k :: 0 <= k < |r| - 1 ==> '.' !in r[k]
    ensures |r| < n ==> '.' !in r[|r| - 1]
  {
    assert r[1..] == rest;
    assert v == v[..i] + "." + v[i + 1..];
    assert forall k :: 1 <= k < |r| ==> r[k] == rest[k - 1];
  }

  /** `splitn(3, '.')`, as `is_newer` uses it. */
  function SplitN3(v: string): (r: seq<string>)
    ensures 1 <= |r| <= 3
    ensures JoinDots(r) == v
    ensures forall i :: 0 <= i < |r| - 1 ==> '.' !in r[i]
    ensures |r| < 3 ==> '.' !in r[|r| - 1]
  {
    SplitN(v, 3)
  }

  /** A dot-free first part is split off whole. */
  lemma SplitNOfJoin(a: string, rest: string, n: nat)
    requires '.' !in a && n >= 2
    ensures SplitN(a + "." + rest, n) == [a] + SplitN(rest, n - 1)
  {
    var v := a + "." + rest;
    assert v == a + ['.'] + rest;
    IndexOfFirst(a, rest, '.');
    assert v[..|a|] == a && v[|a| + 1..] == rest;
  }

  /** Splitting text made of dot-free parts gives those parts back, the third
      part keeping any dots of its own. */
  lemma SplitN3OfJoin(a: string, b: string, c: string)
    requires '.' !in a && '.' !in b
    ensures SplitN3(a + "." + b + "." + c) == [a, b, c]
  {
    assert a + "." + b + "." + c == a + "." + (b + "." + c);
    SplitNOfJoin(a, b + "." + c, 3);
    SplitNOfJoin(b, c, 2);
  }

  // ---------------------------------------------------------------- versions

  /** A release version, each field a `u64`. */
  datatype Version = Version(major: nat, minor: nat, patch: nat)

  predicate ValidVersion(v: Version)
  {
    v.major < U64Limit && v.minor < U64Limit && v.patch < U64Limit
  }

  /** The `parse` closure of `is_newer`: exactly three dot-separated fields,
      each a `u64`. Extra dots end up in the third field and make it fail. */
  function ParseVersion(v: string): (r: Option<Version>)
    ensures r.Some? ==> ValidVersion(r.value)
    ensures r.Some? ==> |SplitN3(v)| == 3 && Count(v, '.') >= 2
  {
    var parts := SplitN3(v);
    if |parts| < 3 then None
    else match (ParseU64(parts[0]), ParseU64(parts[1]), ParseU64(parts[2]))
      case (Some(major), Some(minor), Some(patch)) =>
        JoinDotsCount(parts);
        Some(Version(major, minor, patch))
      case _ => None
  }

  /** The canonical text of a version. */
  function Render(v: Version): string
  {
    Decimal(v.major) + "." + Decimal(v.minor) + "." + Decimal(v.patch)
  }

  /** Rendering a `u64` triple and parsing it back gives the triple. */
  lemma ParseVersionOfRender(v: Version)
    requires ValidVersion(v)
    ensures ParseVersion(Render(v)) == Some(v)
  {
    assert forall s :: AllDigits(s) ==> '.' !in s;
    SplitN3OfJoin(Decimal(v.major), Decimal(v.minor), Decimal(v.patch));
    ParseU64OfDecimal(v.major);
    ParseU64OfDecimal(v.minor);
    ParseU64OfDecimal(v.patch);
  }

  /** A fourth component is never accepted: its dot lands in the patch field. */
  lemma FourComponentsRejected(a: string, b: string, c: string, d: string)
    requires '.' !in a && '.' !in b
    ensures ParseVersion(a + "." + b + "." + c + "." + d) == None
  {
    var v := a + "." + b + "." + c + "." + d;
    assert v == a + "." + b + "." + (c + "." + d);
    SplitN3OfJoin(a, b, c + "." + d);
    var patch := c + "." + d;
    assert patch[|c|] == '.';
    assert |patch| > 0 && patch[0] != '+' ==> !IsDigit(patch[|c|]);
  }

  /** Fewer than two dots: no version. */
  lemma TooFewComponentsRejected(v: string)
    requires Count(v, '.') < 2
    ensures ParseVersion(v) == None
  {
  }

  // ---------------------------------------------------------------- ordering

  /** The derived `>` on `(u64, u64, u64)` tuples: lexicographic. */
  predicate Greater(l: Version, c: Version): (r: bool)
    ensures r ==> l != c
    ensures l.major != c.major ==> (r <==> l.major > c.major)
    ensures l.major == c.major && l.minor != c.minor ==> (r <==> l.minor > c.minor)
  {
    || l.major > c.major
    || (l.major == c.major && l.minor > c.minor)
    || (l.major == c.major && l.minor == c.minor && l.patch > c.patch)
  }

  /** `is_newer`: both sides must parse; then the latest must be greater. */
  function IsNewer(latest: string, current: string): (r: bool)
    ensures r ==> ParseVersion(latest).Some? && ParseVersion(current).Some?
    ensures r ==> ParseVersion(latest) != ParseVersion(current)
  {
    match (ParseVersion(latest), ParseVersion(current))
    case (Some(l), Some(c)) => Greater(l, c)
    case _ => false
  }

  /** A version as one number: the fields as digits in base 2^64. */
  function Key(v: Version): nat
  {
    (v.major * U64Limit + v.minor) * U64Limit + v.patch
  }

  /** On valid versions the tuple order is the order of their keys, an
      independent characterisation of the derived comparison. */
  lemma GreaterIsKeyOrder(l: Version, c: Version)
    requires ValidVersion(l) && ValidVersion(c)
    ensures Greater(l, c) <==> Key(l) > Key(c)
  {
    var B := U64Limit;
    DigitOrder(l.major * B + l.minor, l.patch, c.major * B + c.minor, c.patch, B);
    DigitOrder(l.major, l.minor, c.major, c.minor, B);
  }

  /** Two-digit numbers in base `b` compare by their high digits first. */
  lemma DigitOrder(h1: nat, d1: nat, h2: nat, d2: nat, b: nat)
    requires d1 < b && d2 < b
    ensures h1 * b + d1 > h2 * b + d2 <==> h1 > h2 || (h1 == h2 && d1 > d2)
  {
    if h1 > h2 {
      MulStep(h2, h1, b);
    } else if h1 < h2 {
      MulStep(h1, h2, b);
    }
  }

  /** A larger high digit outweighs any low digit. */
  lemma MulStep(x: nat, y: nat, b: nat)
    requires x < y
    ensures x * b + b <= y * b
  {
    var k: nat := y - x - 1;
    assert y * b == x * b + b + k * b;
  }

  /** On parseable inputs `is_newer` is the comparison of the parsed keys. */
  lemma IsNewerIsKeyOrder(latest: string, current: string)
    requires ParseVersion(latest).Some? && ParseVersion(current).Some?
    ensures IsNewer(latest, current) <==> Key(ParseVersion(latest).value) > Key(ParseVersion(current).value)
  {
    GreaterIsKeyOrder(ParseVersion(latest).value, ParseVersion(current).value);
  }

  /** When either side does not parse, nothing is newer. */
  lemma UnparseableIsNeverNewer(latest: string, current: string)
    requires ParseVersion(latest).None? || ParseVersion(current).None?
    ensures !IsNewer(latest, current)
  {
  }

  /** No version is newer than itself. */
  lemma IsNewerIrreflexive(v: string)
    ensures !IsNewer(v, v)
  {
  }

  /** `is_newer` is asymmetric. */
  lemma IsNewerAsymmetric(a: string, b: string)
    requires IsNewer(a, b)
    ensures !IsNewer(b, a)
  {
    IsNewerIsKeyOrder(a, b);
    IsNewerIsKeyOrder(b, a);
  }

  /** `is_newer` is transitive. */
  lemma IsNewerTransitive(a: string, b: string, c: string)
    requires IsNewer(a, b) && IsNewer(b, c)
    ensures IsNewer(a, c)
  {
    IsNewerIsKeyOrder(a, b);
    IsNewerIsKeyOrder(b, c);
    IsNewerIsKeyOrder(a, c);
  }

  /** A later patch release is newer. */
  lemma NewerPatch()
    ensures IsNewer("0.2.2", "0.2.1")
  {
    ParsesAs(Version(0, 2, 2), "0.2.2");
    ParsesAs(Version(0, 2, 1), "0.2.1");
  }

  /** A later minor release is newer, whatever the patch numbers. */
  lemma NewerMinor()
    ensures IsNewer("0.3.0", "0.2.9")
  {
    ParsesAs(Version(0, 3, 0), "0.3.0");
    ParsesAs(Version(0, 2, 9), "0.2.9");
  }

  /** A later major release is newer, whatever the other numbers. */
  lemma NewerMajor()
    ensures IsNewer("1.0.0", "0.9.9")
  {
    ParsesAs(Version(1, 0, 0), "1.0.0");
    ParsesAs(Version(0, 9, 9), "0.9.9");
  }

  /** An older release is not newer. */
  lemma OlderNotNewer()
    ensures !IsNewer("0.2.0", "0.2.1")
  {
    ParsesAs(Version(0, 2, 0), "0.2.0");
    ParsesAs(Version(0, 2, 1), "0.2.1");
  }

  /** A version text made of single digits parses to its digits. */
  lemma ParsesAs(v: Version, s: string)
    requires v.major < 10 && v.minor < 10 && v.patch < 10
    requires s == [DigitChar(v.major), '.', DigitChar(v.minor), '.', DigitChar(v.patch)]
    ensures ParseVersion(s) == Some(v)
  {
    assert Render(v) == s;
    ParseVersionOfRender(v);
  }

  // ---------------------------------------------------------------- the notice

  /** `check_for_update`: the version to announce, if any. Every failure of the
      query is silent, and so is a latest release that is not newer. */
  function UpdateNotice(response: Result<Json>, current: string): (r: Option<string>)
    ensures r.Some? ==> LatestVersion(response) == Success(r.value) && IsNewer(r.value, current)
    ensures LatestVersion(response).Success? && IsNewer(LatestVersion(response).value, current) ==> r.Some?
  {
    match LatestVersion(response)
    case Success(latest) => if IsNewer(latest, current) then Some(latest) else None
    case Failure(_) => None
  }

  /** A release tagged with the running version, with or without `v`s in
      front, is never announced. */
  lemma SameReleaseNotAnnounced(n: nat, current: string)
    requires |current| == 0 || current[0] != 'v'
    ensures UpdateNotice(Success(JObject(map["tag_name" := JString(Repeat('v', n) + current)])), current) == None
  {
    TrimStartOfRepeat('v', n, current);
  }
}
